=== FILE: README.md ===
# gridbot — a Dafny model of the grid-trading core

gridbot is a spot grid-trading bot. For one trading pair it buys at market once. It keeps a
sell order one grid step above the reference price and a ladder of limit buys one grid step
apart below it. When a buy fills, it places a sell one step up and a buy one step down. When a
sell fills, it records the fill and drops that rung. A periodic health check puts back a
missing sell and missing buys. Around this core, the bot adds three things: profit
accounting, an optional top-up job for a fee-paying coin, and a dashboard connection that
queues statistics messages.

This project models that core as pure functions over immutable data.

- `Models` (models.dfy) holds the configuration, `OrderPair` and `Trade`, the two config
  properties, and the base currency of a pair.
- `Exchange` (exchange.dfy) holds the order records, the request log alphabet, the
  order-update → `Trade` filter of the order watcher, and the cached ticker price.
- `Strategy` (strategy.dfy) is the `GridStrategy` ledger. Its state is the rung list,
  the completed fills and the grid size, with initialisation, fresh start, the two placement
  helpers, fill handling and the health check. Each operation receives the venue's replies as
  parameters: ticker price, open orders, free balances, and the record each placement returns
  (a ladder receives one reply per rung index). Each operation returns the new ledger, the log
  of requests it sent and the exception it raised, if any. An exception keeps what happened
  before it, as Python does.
- `GridInvariants` (invariants.dfy) proves two invariants over every trace from the
  constructor's empty state:
  - rungs with a sell leg form a prefix of the rung list;
  - with fresh sell ids, no completed sell still names a live rung.
- `WebSocket` (websocket.dfy) holds the ten-entry price history, the FIFO message queue, and
  one step each of the sender loop, the keep-alive loop and connecting. Each socket call is
  reduced to its outcome.
- `Bot` (bot.dfy) holds total and period profit (loops proved against a recursive sum),
  statistics routing, and the fee-coin top-up pass, both as written and corrected.
- `GridFacts` (facts.dfy) holds derived facts and scenarios:
  - a grid laid on an empty ledger;
  - what a health check may send;
  - the corrected health ladder;
  - concrete scenarios on the fixture configuration of the unit tests (10 grids, BTC/USDT,
    investment 1000, 1% grid, BNB as fee coin).

`Decimal` is modelled as `real` with exact division. Timestamps are integers in milliseconds.
`now` (seconds) is a parameter of the period profit.

## Model

| member | source | states |
|---|---|---|
| Models.QuotePerTrade | src/gridbot/models.py:27-30 | the quote per trade times the number of grids is the investment |
| Models.GridSizePercent | src/gridbot/models.py:32-35 | the fraction times 100 is the configured grid size |
| Models.NewOrderPair | src/gridbot/models.py:38-45 | a new rung carries the given buy id, price, amount and timestamp and no sell leg |
| Models.NewTrade | src/gridbot/models.py:48-56 | a new fill carries the given fields and no fee |
| Models.BaseCurrency | src/gridbot/strategy.py:59 | the base currency is a '/'-free prefix of the pair, followed by '/' when it is not the whole pair |
| Models.BaseCurrencyOfPair | src/gridbot/strategy.py:117 | the base currency of "COIN/QUOTE" is COIN whenever COIN has no '/' |
| Exchange.TradeOf | src/gridbot/exchange.py:99-108 | a fill is produced exactly for a present update whose status is closed or filled and whose type is limit; it copies id, side, price, amount, cost and timestamp and has no fee |
| Exchange.ResolveSymbol | src/gridbot/exchange.py:36 | an absent or empty symbol falls back to the configured pair; otherwise the symbol is used |
| Exchange.NewTickerCache | src/gridbot/exchange.py:12 | a fresh exchange wrapper has no cached price |
| Exchange.FetchTicker | src/gridbot/exchange.py:34-39 | the fetch asks for the resolved symbol and caches that symbol's last price, whatever symbol it is |
| Exchange.FetchTickerCorrected | src/gridbot/exchange.py:34-39 | the corrected fetch caches the price only for the configured pair and leaves the cache alone otherwise |
| Exchange.WatchTickerSymbol | src/gridbot/exchange.py:41-44 | an absent or empty symbol watches the configured pair; otherwise the given symbol is watched |
| Exchange.CorrectedFetchesKeepPairPrice | src/gridbot/exchange.py:34-39 | under the corrected fetch, any sequence of fetches keeps the cache empty or holding the pair's own price |
| Strategy.NewLedger | src/gridbot/strategy.py:8-13 | the constructor's state has no rungs, no completed fills and no grid size |
| Strategy.CalculateGridSize | src/gridbot/strategy.py:15-17 | the grid size times 100 is the price times the configured grid size |
| Strategy.PairOf | src/gridbot/strategy.py:67-72 | a placed buy is recorded from the venue's record: its id, price, amount and timestamp, with no sell leg |
| Strategy.FirstUnpaired | src/gridbot/strategy.py:79-80 | the index is the first rung without a sell leg, or the list length when every rung has one |
| Strategy.FirstSellMatch | src/gridbot/strategy.py:100-101 | the index is the first rung whose sell leg is the id, or the list length when none is |
| Strategy.AttachSell | src/gridbot/strategy.py:79-83 | only the first rung without a sell leg is written; rungs with a sell leg are never overwritten; no rung is added or removed |
| Strategy.RemoveAt | src/gridbot/strategy.py:103 | removing a rung keeps the others in their order |
| Strategy.PlaceBuyOrder | src/gridbot/strategy.py:64-73 | one limit buy is requested and the venue's record is appended as a new last rung |
| Strategy.PlaceSellOrder | src/gridbot/strategy.py:75-84 | one limit sell is requested and its record is attached to the first rung without a sell leg |
| Strategy.LadderPairs | src/gridbot/strategy.py:47-50 | the ladder's rungs are one bare rung per rung index, from the reply for that index |
| Strategy.PlaceLadder | src/gridbot/strategy.py:47-50 | the buy loop appends exactly the reference ladder: one limit buy per rung at base − i·grid, sized quote per trade / that price, and one rung per reply |
| Strategy.CancelAll | src/gridbot/strategy.py:54-56 | one cancel per open order, in the venue's order, and nothing else |
| Strategy.FreshStart | src/gridbot/strategy.py:52-62 | cancels every open order, then market-sells the free base balance exactly when it is positive; a missing base balance raises KeyError after the cancels; the ledger is not cleared |
| Strategy.InitializeGrid | src/gridbot/strategy.py:19-50 | raises exactly when the fresh start does; otherwise sets the grid size, requests a market buy of quote per trade / price, a sell one grid up and the buys for rungs 1 .. grids−1, and attaches the sell to the first rung without a sell leg in the old rungs followed by the market rung (the market rung itself when starting from the constructor's state), then appends the ladder rungs |
| Strategy.BuildGrid | src/gridbot/strategy.py:24-50 | the part after the fresh start, with the same requests and rungs relative to the incoming state |
| Strategy.HandleFilledOrder | src/gridbot/strategy.py:86-104 | a buy fill without a grid size raises TypeError; a buy fill requests a sell one grid up and a buy one grid down and grows the rungs by one; a sell fill matching a rung's sell leg records the fill, drops the first such rung and requests nothing; anything else changes nothing |
| Strategy.SideFilter | src/gridbot/strategy.py:111-112 | every order of one side is kept, and only orders of that side |
| Strategy.SideFilterCounts | src/gridbot/strategy.py:111-112 | each order of the side is kept exactly as many times as the venue lists it and none of the other side, so the filter's length is that side's order count |
| Strategy.LowestPrice | src/gridbot/strategy.py:129 | the lowest price is some open buy's price and no open buy is cheaper |
| Strategy.CheckOrderHealth | src/gridbot/strategy.py:106-136 | KeyError exactly when no sell is open and the base balance is missing; TypeError exactly when an unset grid size or cached price is needed; otherwise a sell of the free base balance one grid above the cached price when none is open and the balance is positive, then the missing buys from the ladder base downwards |
| Strategy.RepairGrid | src/gridbot/strategy.py:114-136 | the placements of a health check that raises nothing are the reference sell and ladder |
| GridInvariants.SplitAtFirstUnpaired | src/gridbot/strategy.py:79-83 | under the invariant a rung has a sell leg exactly when it lies before the first unpaired rung |
| GridInvariants.AttachSellKeepsSellLegsFirst | src/gridbot/strategy.py:79-83 | attaching a sell keeps the paired rungs a prefix |
| GridInvariants.AppendUnpairedKeepsSellLegsFirst | src/gridbot/strategy.py:67-72 | appending bare rungs keeps the paired rungs a prefix |
| GridInvariants.RemoveAtKeepsSellLegsFirst | src/gridbot/strategy.py:103 | removing a rung keeps the paired rungs a prefix |
| GridInvariants.InitializeGridKeepsSellLegsFirst | src/gridbot/strategy.py:19-50 | initialisation keeps the paired rungs a prefix, whatever the venue replies |
| GridInvariants.HandleFilledOrderKeepsSellLegsFirst | src/gridbot/strategy.py:86-104 | fill handling keeps the paired rungs a prefix |
| GridInvariants.CheckOrderHealthKeepsSellLegsFirst | src/gridbot/strategy.py:106-136 | the health check keeps the paired rungs a prefix |
| GridInvariants.ApplyKeepsSellLegsFirst | src/gridbot/strategy.py:19-136 | any single strategy call keeps the paired rungs a prefix |
| GridInvariants.ReachableSellLegsFirst | src/gridbot/strategy.py:8-13 | every ledger reachable from the constructor's state has its paired rungs first |
| GridInvariants.NoMatchMeansNone | src/gridbot/strategy.py:100-101 | when no rung carries the id, the search finds nothing |
| GridInvariants.SellFillKeepsSettled | src/gridbot/strategy.py:98-104 | a sell fill drops the only rung carrying its id, so distinct sell ids stay distinct and no completed sell names a live rung |
| GridInvariants.BuyFillKeepsSettled | src/gridbot/strategy.py:88-96 | a buy fill with a fresh sell id keeps sell ids distinct and the ledger settled |
| GridInvariants.AppendBareKeepsSettled | src/gridbot/strategy.py:64-73 | appending bare rungs keeps the ledger settled |
| GridInvariants.AttachFreshKeepsSettled | src/gridbot/strategy.py:75-84 | attaching a fresh sell id keeps sell ids distinct and the ledger settled |
| GridInvariants.InitializeGridKeepsSettled | src/gridbot/strategy.py:19-50 | initialisation with a fresh sell id keeps the ledger settled |
| GridInvariants.HandleFilledOrderKeepsSettled | src/gridbot/strategy.py:86-104 | any fill keeps the ledger settled when a buy fill's sell id is fresh |
| GridInvariants.CheckOrderHealthKeepsSettled | src/gridbot/strategy.py:106-136 | the health check keeps the ledger settled when the sell it may place has a fresh id |
| GridInvariants.ApplyKeepsSettled | src/gridbot/strategy.py:19-136 | any single strategy call with fresh sell ids keeps the ledger settled |
| GridInvariants.ReachableSettled | src/gridbot/strategy.py:102-103 | along any trace with fresh sell ids, a settled ledger stays settled |
| WebSocket.NewWsState | src/gridbot/websocket.py:11-16 | a new manager is disconnected, has no socket, and has an empty queue and history |
| WebSocket.AddPrice | src/gridbot/websocket.py:58-60 | the history grows by one up to ten entries, ends with the new price, and keeps the newest earlier prices in order |
| WebSocket.AddPricesKeepsLatest | src/gridbot/websocket.py:16 | after any sequence of additions the history is the ten most recent prices in insertion order |
| WebSocket.LatestAbsorbs | src/gridbot/websocket.py:16 | dropping old entries before appending more does not change the ten newest |
| WebSocket.SendUpdate | src/gridbot/websocket.py:62-75 | frontend off leaves the state alone; otherwise exactly one message with bot name, type, body, stats and the current history is appended at the back |
| WebSocket.ProcessMessagesStep | src/gridbot/websocket.py:46-56 | with a connection, a socket and a queued message: a successful send removes and returns the front message, a failed one leaves the queue as it was; otherwise nothing changes |
| WebSocket.ProcessMessagesKeepsOrder | src/gridbot/websocket.py:46-56 | over any run of sender passes, the messages sent followed by those still queued are exactly the original queue |
| WebSocket.Connect | src/gridbot/websocket.py:18-29 | frontend off does nothing; success stores the socket and marks connected; failure marks disconnected |
| WebSocket.KeepAlive | src/gridbot/websocket.py:31-44 | with a live connection a closed ping clears the flag and the socket and any other ping error ends the loop; without one it reconnects; queue and history never change |
| WebSocket.ConnectionFlagsStaySound | src/gridbot/websocket.py:18-56 | connecting, keep-alive and sender passes never leave the manager connected without a socket |
| Bot.TradeProfit | src/gridbot/bot.py:124-130 | buy fills and sell fills with no matching rung contribute zero |
| Bot.RecentIsWindow | src/gridbot/bot.py:138-139 | the window holds exactly the fills stamped at or after its start |
| Bot.CalculateTotalProfit | src/gridbot/bot.py:120-131 | the nested loops compute the sum of the per-fill profits |
| Bot.MatchedProfit | src/gridbot/bot.py:124-130 | the inner search prices a sell fill against the first rung whose sell leg is its id |
| Bot.CalculatePeriodProfit | src/gridbot/bot.py:133-147 | the loop computes the sum over the fills inside the window of `hours` before `now` |
| Bot.WholeWindowKeepsAll | src/gridbot/bot.py:138-139 | a window starting no later than every fill keeps all fills in order |
| Bot.WholeWindowIsTotal | src/gridbot/bot.py:133-147 | a window covering every fill reports the total profit |
| Bot.UnmatchedFillsEarnNothing | src/gridbot/bot.py:126-130 | when no completed sell names a live rung, the profit is zero |
| Bot.SettledLedgerReportsZero | src/gridbot/bot.py:107-112 | a settled ledger reports zero total, daily, weekly and monthly profit |
| Bot.ReachableProfitIsZero | src/gridbot/bot.py:120-131 | every ledger reachable from the constructor's state with fresh sell ids reports zero profit in all four figures |
| Bot.UpdateStats | src/gridbot/bot.py:102-118 | frontend off changes nothing; with a fill the price joins the history before a "trade" message carrying it is queued; without one a "stats" message with an empty body is queued |
| Bot.TradeMessageEndsWithFillPrice | src/gridbot/bot.py:114-116 | the queued trade message's price list ends with the fill's price and the earlier queue is untouched |
| Bot.FeeCoinTickAsWritten | src/gridbot/bot.py:53-77 | nothing when the fee coin is absent or disabled; otherwise the cache takes the fee coin's price, and a market buy of repurchase amount / price on the grid's pair is sent exactly when the coin has a balance, its value is below the threshold and the price is non-zero |
| Bot.FeeCoinTick | src/gridbot/bot.py:53-77 | corrected: the same decision, the buy is on COIN/USDT and worth the repurchase amount; when COIN/USDT is not the pair the cache is left exactly as it was, and when it is the pair the cache takes the pair's fresh quote, so a cached pair price is never replaced by another symbol's |
| GridFacts.InitializeFromEmptyRungs | src/gridbot/strategy.py:34-50 | from the empty ledger, initialisation leaves exactly `grids` rungs: the market rung with the sell, then one rung per ladder reply |
| GridFacts.InitializeFromEmptyRequests | src/gridbot/strategy.py:29-50 | from the empty ledger, the requests are the market buy, the sell one grid up and one limit buy per rung 1 .. grids−1, each below the ticker price for a positive grid |
| GridFacts.PositiveGrid | src/gridbot/strategy.py:15-17 | a positive percentage of a positive price is a positive grid |
| GridFacts.RungsBelowPrice | src/gridbot/strategy.py:47-48 | with a positive grid every rung from 1 on is below the reference price |
| GridFacts.HealthCheckOnlyAdds | src/gridbot/strategy.py:106-136 | a health check that raises nothing sends the optional limit sell first and then exactly max(0, missing) limit buys, cancels nothing, drops no rung, and keeps every old rung's buy id, buy price, amount and timestamp |
| GridFacts.HealthLogOnlyLimits | src/gridbot/strategy.py:114-136 | the health check's requests are the optional limit sell first and then only limit buys, one per missing buy |
| GridFacts.HealthPairsKeepRungs | src/gridbot/strategy.py:114-136 | the health check keeps every old rung at its index with its buy id, buy price, amount and timestamp, and adds one rung per missing buy |
| GridFacts.HealthLadderRepeatsLowestBuy | src/gridbot/strategy.py:129-136 | as written, with buys open, the first new buy is placed at an open buy's own price |
| GridFacts.CorrectedHealthBase | src/gridbot/strategy.py:129-131 | corrected base: exactly one grid below the lowest open buy (at least one grid below every open buy, and exactly one grid below some open buy), or one grid below the cached price when no buy is open |
| GridFacts.RepairLadderCorrected | src/gridbot/strategy.py:126-136 | corrected missing-buy loop: when buys are missing, the requests are exactly the ladder of quote per trade / price from the corrected base at rungs 0 .. missing−1; one rung per missing buy; every new buy strictly below every open buy for a positive grid |
| GridFacts.CorrectedRungsBelowOpenBuys | src/gridbot/strategy.py:133-136 | every rung of the corrected ladder lies strictly below every open buy |
| GridFacts.MockGridSizing | tests/unit/gridbot/test_strategy.py:70-77 | a 1% grid at 45000 is 450 |
| GridFacts.MockConfigSizing | tests/unit/gridbot/test_models.py:59-91 | 1000 over 10 grids is 100 and over 5 is 200; a 2.5 percent grid is 0.025 |
| GridFacts.BuyFillOnEmptyLedger | tests/unit/gridbot/test_strategy.py:135-168 | a buy fill at 45000 with grid 450 requests the sell at 45450 and the buy at 44550; the only rung afterwards is the replacement buy's record |
| GridFacts.SellFillOnMatchingRung | tests/unit/gridbot/test_strategy.py:170-215 | a sell fill naming the only rung records the fill, leaves no rung and requests nothing |
| GridFacts.FeeTickerOverwritesPairPrice | src/gridbot/bot.py:61-63 | after one fee pass as written the cache holds 300, the fee coin's price, instead of the pair's 45000 |
| GridFacts.HealthSellAfterFeePass | src/gridbot/strategy.py:115-124 | a health check on that cache sells the base balance at 750 |
| GridFacts.FeePassKeepsPairPrice | src/gridbot/bot.py:61-63 | the corrected pass keeps 45000 in the cache |
| GridFacts.TopUpBuysGridPair | src/gridbot/bot.py:69-73 | as written, a BNB value of 3 under a threshold of 10 sends a buy of 20/300 on BTC/USDT, worth 3000 |
| GridFacts.TopUpBuysFeeCoin | src/gridbot/bot.py:69-73 | the corrected pass buys 20/300 on BNB/USDT, worth exactly 20 |

## Left out

- Async orchestration, sleeps and the jitter, signal handlers, the entry point and JSON config
  loading (src/gridbot/bot.py:16-51, 80, 82-100, 149-201) are I/O, timing and process control.
  `_monitor_health` and `_watch_trades` only call the modelled operations and catch exceptions.
- The loop in `_watch_trades` calls `exchange.watch_trades`, which the exchange class does not
  define. The loop is not modelled; the order-update filter is (`Exchange.TradeOf`).
- The ccxt exchange construction, market loading and the order-placement wrappers
  (src/gridbot/exchange.py:15-32, 46-90, 113-115) are thin calls into a library that is not
  part of this model. Their replies are parameters. Cancels and market sells take no reply
  because the strategy discards it.
- The conversions to `float` on the way to the venue and in the profit figures, and the
  28-digit rounding of Python's `Decimal` division: all values are exact reals.
- Division by zero (investment / grids, quote / price, quote / rung price) is a
  precondition (`InitDivisible`, `FillDivisible`, `HealthDivisible`), not a modelled
  exception. The one exception is the fee-coin pass, whose handler swallows it; that pass
  models it as "no order".
- The websocket transport, JSON encoding, and the real connect, ping, send and close. Only
  their outcomes are modelled. Connect, ping and send outcomes are parameters.
- WebSocket.KeepAlive: a ping error other than connection-closed escapes `keep_alive`. The
  `asyncio.gather` in `run` (src/gridbot/bot.py:169-175) then re-raises it, so the whole bot
  stops and cleans up. The model records this only as a `stopped` flag. The bot-wide shutdown
  and cleanup are not modelled.
- Bot.CalculatePeriodProfit: the window start is taken as `now` in POSIX seconds minus exactly
  3600 seconds per hour. The source subtracts the hours from naive local time and then
  converts with `.timestamp()` (src/gridbot/bot.py:135, 139). Across a daylight-saving change
  inside the window, the source's window is therefore 23 or 25 hours long, where the model's
  is always `hours` long. The source's threshold is also a float, while the model's is exact.
- Strategy.InitializeGrid: the ticker fetch inside it also updates the exchange's cached
  price. That cache is not threaded through the strategy. The health check receives the
  cached price as a parameter, and the cache itself is modelled in `Exchange` and `Bot`.
- Pydantic validation and field aliases. The configuration has no range validators, so any
  value is accepted. `Trade` is built without the `symbol` argument the order watcher passes,
  because the model class has no such field and pydantic drops it.
- Two unit tests expect behaviour the code does not have. tests/unit/gridbot/test_strategy.py:162-168
  expects the filled buy's own rung to keep its id. tests/unit/gridbot/test_strategy.py:203-215
  expects a completed pair and a re-buy after a sell fill. The model follows the code, and
  `GridFacts.BuyFillOnEmptyLedger` and `GridFacts.SellFillOnMatchingRung` state what the code does.
- Trail-up, state persistence, order-status queries and pruning of surplus rungs do not exist
  in the source.
- Bot.ReachableProfitIsZero and GridInvariants.ReachableSettled need every sell reply that is
  used to carry an id no live rung or completed fill already has. The venue is trusted to give
  fresh ids.
- Only one pass of each loop (`process_messages`, `keep_alive`, `_handle_fee_coin`) is
  modelled. `ProcessMessages` folds several sender passes.

## Findings

| source | as written | input that shows it | evidently intended | confidence | as-written member | corrected member |
|---|---|---|---|---|---|---|
| src/gridbot/bot.py:61-63 | the fee-coin price is fetched through `fetch_ticker`, which caches every fetched price as the pair's current price (src/gridbot/exchange.py:38) | BTC/USDT at 45000, BNB/USDT at 300, grid 450: after one fee pass the cache holds 300, and the next health check with no open sell sells at 750 | fetching another symbol leaves the pair's cached price alone | not executed; high | GridFacts.FeeTickerOverwritesPairPrice | Bot.FeeCoinTick |
| src/gridbot/bot.py:73 | the top-up goes through `create_market_buy_order`, which always trades the configured pair (src/gridbot/exchange.py:62-67) | BNB balance 0.01 at 300 (value 3 under threshold 10, repurchase 20): a market buy of 20/300 on BTC/USDT, about 3000 USDT | a market buy of repurchase amount / price on COIN/USDT | not executed; high | GridFacts.TopUpBuysGridPair | Bot.FeeCoinTick |
| src/gridbot/strategy.py:133-134 | the missing buys are priced base − i·grid from i = 0, with base = the lowest open buy | 10 grids, one open buy at 44000, grid 450: the first new buy is at 44000 again | start one grid below the lowest open buy | not executed; medium | GridFacts.HealthLadderRepeatsLowestBuy | GridFacts.RepairLadderCorrected |

`Strategy.CheckOrderHealth` keeps the ladder base as written. `GridFacts.RepairLadderCorrected` is the
corrected missing-buy loop, built from the same ladder function. The corrected fee-coin pass uses
`Exchange.FetchTickerCorrected`.

=== FILE: bot.dfy ===
/**
 * The bot's pure pieces: profit accounting over the completed fills, the
 * fee-coin top-up decision, and the routing of statistics to the dashboard.
 */
module Bot {
  import opened Wrappers
  import opened Models
  import opened Exchange
  import opened Strategy
  import opened WebSocket
  import opened GridInvariants

  // ---------------------------------------------------------------------------
  // Profit accounting
  // ---------------------------------------------------------------------------

  /** Profit one completed fill contributes: a sell fill is priced against the first
      live rung whose sell leg carries its id; every other fill contributes nothing. */
  function TradeProfit(t: Trade, pairs: seq<OrderPair>): (p: real)
    ensures t.side != "sell" ==> p == 0.0
    ensures FirstSellMatch(pairs, t.orderId) == |pairs| ==> p == 0.0
  {
    var k := FirstSellMatch(pairs, t.orderId);
    if t.side == "sell" && k < |pairs| then (t.price - pairs[k].buyPrice) * t.amount else 0.0
  }

  /** Reference: the sum of the per-fill profits, fill by fill. */
  function SumProfit(trades: seq<Trade>, pairs: seq<OrderPair>): real
    decreases |trades|
  {
    if |trades| == 0 then 0.0
    else SumProfit(trades[..|trades| - 1], pairs) + TradeProfit(trades[|trades| - 1], pairs)
  }

  /** Start of a reporting window, in milliseconds: `hours` before `now` (seconds). */
  function WindowStart(now: real, hours: int): real {
    (now - (hours as real) * 3600.0) * 1000.0
  }

  /** The fills stamped at or after `since`, in their original order. */
  function Recent(trades: seq<Trade>, since: real): seq<Trade>
    decreases |trades|
  {
    if |trades| == 0 then []
    else
      var last := trades[|trades| - 1];
      Recent(trades[..|trades| - 1], since) + (if last.timestamp as real >= since then [last] else [])
  }

  /** The window holds exactly the fills stamped at or after its start. */
  lemma {:induction false} RecentIsWindow(trades: seq<Trade>, since: real)
    ensures forall t :: t in Recent(trades, since) <==> t in trades && t.timestamp as real >= since
    decreases |trades|
  {
    if |trades| > 0 {
      var init := trades[..|trades| - 1];
      var last := trades[|trades| - 1];
      RecentIsWindow(init, since);
      assert trades == init + [last];
      assert forall t :: t in trades <==> t in init || t == last;
    }
  }

  /** `_calculate_total_profit`: the loop over completed fills with the inner search
      for the matching rung computes the reference sum. */
  method CalculateTotalProfit(completed: seq<Trade>, pairs: seq<OrderPair>) returns (total: real)
    ensures total == SumProfit(completed, pairs)
  {
    total := 0.0;
    var i := 0;
    while i < |completed|
      invariant 0 <= i <= |completed|
      invariant total == SumProfit(completed[..i], pairs)
    {
      var trade := completed[i];
      var contribution := MatchedProfit(trade, pairs);
      total := total + contribution;
      assert completed[..i + 1][..i] == completed[..i];
      i := i + 1;
    }
    assert completed[..i] == completed;
  }

  /** The inner loop: find the first rung whose sell leg is the fill's id and price the fill. */
  method MatchedProfit(trade: Trade, pairs: seq<OrderPair>) returns (profit: real)
    ensures profit == TradeProfit(trade, pairs)
  {
    profit := 0.0;
    if trade.side == "sell" {
      var j := 0;
      while j < |pairs|
        invariant 0 <= j <= |pairs|
        invariant forall m :: 0 <= m < j ==> pairs[m].sellOrderId != Some(trade.orderId)
      {
        if pairs[j].sellOrderId == Some(trade.orderId) {
          assert FirstSellMatch(pairs, trade.orderId) == j;
          profit := (trade.price - pairs[j].buyPrice) * trade.amount;
          return;
        }
        j := j + 1;
      }
      assert FirstSellMatch(pairs, trade.orderId) == |pairs|;
    }
  }

  /** `_calculate_period_profit`: the same sum restricted to fills inside the window. */
  method CalculatePeriodProfit(completed: seq<Trade>, pairs: seq<OrderPair>, now: real, hours: int) returns (profit: real)
    ensures profit == SumProfit(Recent(completed, WindowStart(now, hours)), pairs)
  {
    var since := WindowStart(now, hours);
    profit := 0.0;
    var i := 0;
    while i < |completed|
      invariant 0 <= i <= |completed|
      invariant profit == SumProfit(Recent(completed[..i], since), pairs)
    {
      var trade := completed[i];
      assert completed[..i + 1][..i] == completed[..i];
      if trade.timestamp as real >= since {
        var contribution := MatchedProfit(trade, pairs);
        profit := profit + contribution;
        var r := Recent(completed[..i], since);
        assert Recent(completed[..i + 1], since) == r + [trade];
        assert (r + [trade])[..|r|] == r;
      } else {
        assert Recent(completed[..i + 1], since) == Recent(completed[..i], since);
      }
      i := i + 1;
    }
    assert completed[..i] == completed;
  }

  /** A window that reaches back past every fill keeps every fill. */
  lemma {:induction false} WholeWindowKeepsAll(trades: seq<Trade>, since: real)
    requires forall i :: 0 <= i < |trades| ==> trades[i].timestamp as real >= since
    ensures Recent(trades, since) == trades
    decreases |trades|
  {
    if |trades| > 0 {
      var init := trades[..|trades| - 1];
      WholeWindowKeepsAll(init, since);
      assert trades == init + [trades[|trades| - 1]];
    }
  }

  /** A window that reaches back past every fill reports the total profit. */
  lemma WholeWindowIsTotal(trades: seq<Trade>, pairs: seq<OrderPair>, since: real)
    requires forall t :: t in trades ==> t.timestamp as real >= since
    ensures SumProfit(Recent(trades, since), pairs) == SumProfit(trades, pairs)
  {
    WholeWindowKeepsAll(trades, since);
  }

  /** When no completed sell names a live rung, every fill contributes zero. */
  lemma {:induction false} UnmatchedFillsEarnNothing(trades: seq<Trade>, pairs: seq<OrderPair>)
    requires forall t :: t in trades && t.side == "sell" ==> FirstSellMatch(pairs, t.orderId) == |pairs|
    ensures SumProfit(trades, pairs) == 0.0
    decreases |trades|
  {
    if |trades| > 0 {
      var init := trades[..|trades| - 1];
      assert forall t :: t in init ==> t in trades;
      UnmatchedFillsEarnNothing(init, pairs);
      assert trades[|trades| - 1] in trades;
    }
  }

  /** The four figures `_update_stats` reports: total, last day, last week, last 30 days. */
  function ProfitStats(ledger: Ledger, now: real): Stats {
    Stats(
      SumProfit(ledger.completed, ledger.pairs),
      SumProfit(Recent(ledger.completed, WindowStart(now, 24)), ledger.pairs),
      SumProfit(Recent(ledger.completed, WindowStart(now, 168)), ledger.pairs),
      SumProfit(Recent(ledger.completed, WindowStart(now, 720)), ledger.pairs))
  }

  /** A sell fill removes its rung in the same step that records the fill, so in a
      settled ledger the profit lookup never finds a rung: every figure is zero. */
  lemma SettledLedgerReportsZero(ledger: Ledger, now: real)
    requires Settled(ledger)
    ensures ProfitStats(ledger, now) == Stats(0.0, 0.0, 0.0, 0.0)
  {
    RecentIsWindow(ledger.completed, WindowStart(now, 24));
    RecentIsWindow(ledger.completed, WindowStart(now, 168));
    RecentIsWindow(ledger.completed, WindowStart(now, 720));
    UnmatchedFillsEarnNothing(ledger.completed, ledger.pairs);
    UnmatchedFillsEarnNothing(Recent(ledger.completed, WindowStart(now, 24)), ledger.pairs);
    UnmatchedFillsEarnNothing(Recent(ledger.completed, WindowStart(now, 168)), ledger.pairs);
    UnmatchedFillsEarnNothing(Recent(ledger.completed, WindowStart(now, 720)), ledger.pairs);
  }

  /** From the constructor's empty state, with fresh sell ids, every figure the bot
      reports is zero: the lookup the profit calculation performs never succeeds. */
  lemma ReachableProfitIsZero(config: BotConfig, events: seq<Event>, now: real)
    requires Replayable(config, NewLedger(), events) && SellIdsFresh(config, NewLedger(), events)
    ensures ProfitStats(Replay(config, NewLedger(), events), now) == Stats(0.0, 0.0, 0.0, 0.0)
  {
    ReachableSettled(config, NewLedger(), events);
    SettledLedgerReportsZero(Replay(config, NewLedger(), events), now);
  }

  // ---------------------------------------------------------------------------
  // Statistics routing
  // ---------------------------------------------------------------------------

  /** `_update_stats`: nothing when the frontend is off. With a fill, its price joins
      the history first and a "trade" message is queued carrying that history;
      without one, a "stats" message with an empty body is queued. */
  function UpdateStats(config: BotConfig, w: WsState, ledger: Ledger, now: real, trade: Option<Trade>): (r: WsState)
    ensures !config.frontend ==> r == w
    ensures config.frontend && trade.Some? ==>
      && r.prices == AddPrice(w.prices, trade.value.price)
      && r.queue == w.queue + [Message(config.name, "trade", TradePayload(trade.value), ProfitStats(ledger, now), r.prices)]
      && r.connected == w.connected && r.socket == w.socket
    ensures config.frontend && trade.None? ==>
      r == w.(queue := w.queue + [Message(config.name, "stats", EmptyPayload, ProfitStats(ledger, now), w.prices)])
  {
    if !config.frontend then w
    else
      var stats := ProfitStats(ledger, now);
      match trade
      case Some(t) => SendUpdate(config, w.(prices := AddPrice(w.prices, t.price)), "trade", TradePayload(t), stats)
      case None => SendUpdate(config, w, "stats", EmptyPayload, stats)
  }

  /** The queued trade message ends its price history with the fill's own price. */
  lemma TradeMessageEndsWithFillPrice(config: BotConfig, w: WsState, ledger: Ledger, now: real, t: Trade)
    requires config.frontend
    ensures
      var r := UpdateStats(config, w, ledger, now, Some(t));
      && |r.queue| == |w.queue| + 1
      && r.queue[..|w.queue|] == w.queue
      && |r.queue[|w.queue|].prices| > 0
      && r.queue[|w.queue|].prices[|r.queue[|w.queue|].prices| - 1] == t.price
  {
    var r := UpdateStats(config, w, ledger, now, Some(t));
    assert r.queue[..|w.queue|] == w.queue;
  }

  // ---------------------------------------------------------------------------
  // Fee-coin top-up
  // ---------------------------------------------------------------------------

  /** A market order the top-up job sends, on an explicit symbol. */
  datatype TopUp = TopUp(symbol: string, amount: real)

  /** One pass of the top-up job: the exchange cache afterwards and the order sent, if any. */
  datatype FeeTick = FeeTick(cache: TickerCache, order: Option<TopUp>)

  /** The top-up job runs: a fee coin is configured and enabled. */
  predicate FeeCoinActive(config: BotConfig) {
    config.feeCoin.Some? && config.feeCoin.value.enabled
  }

  /** The ticker symbol the job prices the fee coin on. */
  function FeeSymbol(fc: FeeCoinConfig): string {
    fc.coin + "/USDT"
  }

  /** The top-up goes through: the coin has a free balance, its value is below the
      repurchase threshold, and the price is non-zero (a zero price raises in the
      division and the job's handler swallows it). */
  predicate TopUpDue(fc: FeeCoinConfig, free: map<string, real>, price: real) {
    fc.coin in free && free[fc.coin] * price < fc.repurchaseBalance && price != 0.0
  }

  /** `_handle_fee_coin`, one pass, as written: the ticker fetch for the fee coin goes
      through `fetch_ticker`, which caches that price as the pair's current price, and
      the top-up market buy goes through the wrapper that always trades the grid's pair. */
  function FeeCoinTickAsWritten(config: BotConfig, cache: TickerCache, free: map<string, real>, quote: string -> real): (r: FeeTick)
    ensures !FeeCoinActive(config) ==> r == FeeTick(cache, None)
    ensures FeeCoinActive(config) ==>
      var fc := config.feeCoin.value;
      var price := quote(FeeSymbol(fc));
      && r.cache.currentPrice == Some(price)
      && (r.order.Some? <==> TopUpDue(fc, free, price))
      && (r.order.Some? ==> r.order.value == TopUp(config.pair, fc.repurchaseAmount / price))
  {
    if !FeeCoinActive(config) then FeeTick(cache, None)
    else
      var fc := config.feeCoin.value;
      var fetched := FetchTicker(config, Some(FeeSymbol(fc)), quote);
      var price := quote(fetched.symbol);
      if TopUpDue(fc, free, price) then FeeTick(fetched.cache, Some(TopUp(config.pair, fc.repurchaseAmount / price)))
      else FeeTick(fetched.cache, None)
  }

  /** `_handle_fee_coin`, one pass, corrected: the fee coin's price is fetched without
      touching the pair's cached price, and the top-up buys the fee coin itself. */
  function FeeCoinTick(config: BotConfig, cache: TickerCache, free: map<string, real>, quote: string -> real): (r: FeeTick)
    ensures !FeeCoinActive(config) ==> r == FeeTick(cache, None)
    ensures FeeCoinActive(config) ==>
      var fc := config.feeCoin.value;
      var price := quote(FeeSymbol(fc));
      && (r.order.Some? <==> TopUpDue(fc, free, price))
      && (r.order.Some? ==> r.order.value.symbol == FeeSymbol(fc) && r.order.value.amount * price == fc.repurchaseAmount)
    ensures FeeCoinActive(config) && FeeSymbol(config.feeCoin.value) != config.pair ==> r.cache == cache
    ensures FeeCoinActive(config) && FeeSymbol(config.feeCoin.value) == config.pair ==>
      r.cache.currentPrice == Some(quote(config.pair))
    ensures HoldsPairPrice(config, cache, quote) ==> HoldsPairPrice(config, r.cache, quote)
  {
    if !FeeCoinActive(config) then FeeTick(cache, None)
    else
      var fc := config.feeCoin.value;
      var fetched := FetchTickerCorrected(config, cache, Some(FeeSymbol(fc)), quote);
      var price := quote(fetched.symbol);
      if TopUpDue(fc, free, price) then FeeTick(fetched.cache, Some(TopUp(FeeSymbol(fc), fc.repurchaseAmount / price)))
      else FeeTick(fetched.cache, None)
  }
}

=== FILE: exchange.dfy ===
/**
 * The exchange gateway as the core sees it: the records the venue returns,
 * the requests the core issues, the order-stream filter that turns venue
 * order updates into fills, and the cached last price kept by `fetch_ticker`.
 */
module Exchange {
  import opened Wrappers
  import opened Models

  /** The fields the core reads from the record a placement returns. */
  datatype OrderRecord = OrderRecord(id: string, price: real, amount: real, timestamp: int)

  /** One entry of the venue's open-order list. */
  datatype OpenOrder = OpenOrder(id: string, side: string, price: real, amount: real)

  /** A request the core sends to the venue; all orders are on the configured pair. */
  datatype Request =
    | MarketBuy(amount: real)
    | MarketSell(amount: real)
    | LimitBuy(amount: real, price: real)
    | LimitSell(amount: real, price: real)
    | Cancel(orderId: string)

  /** An order update delivered by the venue's order stream. */
  datatype OrderUpdate = OrderUpdate(
    id: string,
    side: string,
    orderType: string,
    status: string,
    price: real,
    amount: real,
    cost: real,
    timestamp: int)

  /** Statuses the order watcher treats as a completed fill. */
  predicate IsFilledStatus(status: string) {
    status == "closed" || status == "filled"
  }

  /** The order watcher's filter: only a present, filled limit order becomes a fill,
      and the fill carries the order's own fields unchanged. */
  function TradeOf(update: Option<OrderUpdate>): (t: Option<Trade>)
    ensures t.Some? <==> update.Some? && IsFilledStatus(update.value.status) && update.value.orderType == "limit"
    ensures t.Some? ==>
      var u := update.value;
      t.value.orderId == u.id && t.value.side == u.side && t.value.price == u.price
      && t.value.amount == u.amount && t.value.cost == u.cost && t.value.timestamp == u.timestamp
      && t.value.fee == None
  {
    match update
    case None => None
    case Some(u) =>
      if IsFilledStatus(u.status) && u.orderType == "limit" then
        Some(NewTrade(u.id, u.side, u.price, u.amount, u.cost, u.timestamp))
      else
        None
  }

  /** The symbol a ticker call uses: the given one, unless it is absent or empty,
      in which case the configured pair (Python's `symbol or pair`). */
  function ResolveSymbol(symbol: Option<string>, pair: string): (s: string)
    ensures symbol.None? || symbol.value == "" ==> s == pair
    ensures symbol.Some? && symbol.value != "" ==> s == symbol.value
    ensures s == pair || s == symbol.value
  {
    if symbol.None? || symbol.value == "" then pair else symbol.value
  }

  /** The exchange wrapper's mutable state that the core reads: the last price seen. */
  datatype TickerCache = TickerCache(currentPrice: Option<real>)

  /** A fresh wrapper has seen no price. */
  function NewTickerCache(): (c: TickerCache)
    ensures c.currentPrice.None?
  {
    TickerCache(None)
  }

  /** Result of one ticker fetch: the symbol asked for and the updated cache. */
  datatype TickerFetch = TickerFetch(symbol: string, cache: TickerCache)

  /** `fetch_ticker` as written: asks the venue for the resolved symbol and caches
      its last price, whatever symbol that was. `quote` is the venue's last price per symbol. */
  function FetchTicker(config: BotConfig, symbol: Option<string>, quote: string -> real): (f: TickerFetch)
    ensures f.symbol == ResolveSymbol(symbol, config.pair)
    ensures f.cache.currentPrice == Some(quote(f.symbol))
  {
    var s := ResolveSymbol(symbol, config.pair);
    TickerFetch(s, TickerCache(Some(quote(s))))
  }

  /** `fetch_ticker` with the cache reserved for the configured pair: a quote for
      any other symbol is returned but not cached. */
  function FetchTickerCorrected(config: BotConfig, cache: TickerCache, symbol: Option<string>, quote: string -> real): (f: TickerFetch)
    ensures f.symbol == ResolveSymbol(symbol, config.pair)
    ensures f.symbol == config.pair ==> f.cache.currentPrice == Some(quote(config.pair))
    ensures f.symbol != config.pair ==> f.cache == cache
  {
    var s := ResolveSymbol(symbol, config.pair);
    if s == config.pair then TickerFetch(s, TickerCache(Some(quote(s)))) else TickerFetch(s, cache)
  }

  /** `watch_ticker` streams the resolved symbol and leaves the cache alone. */
  function WatchTickerSymbol(config: BotConfig, symbol: Option<string>): (s: string)
    ensures symbol.None? || symbol.value == "" ==> s == config.pair
    ensures symbol.Some? && symbol.value != "" ==> s == symbol.value
  {
    ResolveSymbol(symbol, config.pair)
  }

  /** The cache invariant the health check relies on: no price, or the pair's own price. */
  predicate HoldsPairPrice(config: BotConfig, cache: TickerCache, quote: string -> real) {
    cache.currentPrice.None? || cache.currentPrice.value == quote(config.pair)
  }

  /** With the corrected fetch, any sequence of ticker fetches keeps the cache on the pair's price. */
  lemma {:induction false} CorrectedFetchesKeepPairPrice(config: BotConfig, cache: TickerCache, symbols: seq<Option<string>>, quote: string -> real)
    requires HoldsPairPrice(config, cache, quote)
    ensures HoldsPairPrice(config, FetchAll(config, cache, symbols, quote), quote)
    decreases |symbols|
  {
    if |symbols| > 0 {
      var next := FetchTickerCorrected(config, cache, symbols[0], quote).cache;
      assert HoldsPairPrice(config, next, quote);
      CorrectedFetchesKeepPairPrice(config, next, symbols[1..], quote);
    }
  }

  /** Runs the corrected fetch for each symbol in turn and returns the final cache. */
  function FetchAll(config: BotConfig, cache: TickerCache, symbols: seq<Option<string>>, quote: string -> real): TickerCache
    decreases |symbols|
  {
    if |symbols| == 0 then cache
    else FetchAll(config, FetchTickerCorrected(config, cache, symbols[0], quote).cache, symbols[1..], quote)
  }
}

=== FILE: facts.dfy ===
/**
 * Consequences of the strategy, exchange and bot models: what a grid laid on an
 * empty ledger looks like, what a health check may send, the corrected health
 * ladder, and concrete scenarios on the fixture configuration the repository's
 * unit tests use (a 10-grid BTC/USDT bot investing 1000 at a 1% grid, BNB as fee coin).
 */
module GridFacts {
  import opened Wrappers
  import opened Models
  import opened Exchange
  import opened Strategy
  import opened Bot

  // ---------------------------------------------------------------------------
  // Initialisation from an empty ledger
  // ---------------------------------------------------------------------------

  /** Initialising an empty ledger without a fresh start lays exactly `grids` rungs:
      the market buy first, carrying the one sell, then one bare rung per ladder reply. */
  lemma InitializeFromEmptyRungs(
    config: BotConfig, last: real, marketOrder: OrderRecord, sellOrder: OrderRecord, buyReply: nat -> OrderRecord)
    requires InitDivisible(config, last) && config.grids >= 1
    ensures
      var o := InitializeGrid(NewLedger(), config, false, [], map[], last, marketOrder, sellOrder, buyReply);
      && o.raised.None?
      && |o.run.ledger.pairs| == config.grids
      && o.run.ledger.pairs[0] == WithSell(PairOf(marketOrder), sellOrder.id, sellOrder.price)
      && (forall i :: 1 <= i < config.grids ==> o.run.ledger.pairs[i] == PairOf(buyReply(i)))
  {
    var o := InitializeGrid(NewLedger(), config, false, [], map[], last, marketOrder, sellOrder, buyReply);
    assert o.run == BuildGrid(Run(NewLedger(), []), config, last, marketOrder, sellOrder, buyReply);
    var pairs := o.run.ledger.pairs;
    var ladder := LadderPairs(buyReply, 1, config.grids);
    assert [] + [PairOf(marketOrder)] == [PairOf(marketOrder)];
    assert pairs == AttachSell([PairOf(marketOrder)], sellOrder.id, sellOrder.price) + ladder;
    forall i | 1 <= i < config.grids
      ensures pairs[i] == PairOf(buyReply(i))
    {
      assert pairs[i] == ladder[i - 1];
    }
  }

  /** The requests of that initialisation: the market buy, the sell one grid up, and
      a limit buy per rung 1 .. grids-1, each below the ticker price when the grid is positive. */
  lemma InitializeFromEmptyRequests(
    config: BotConfig, last: real, marketOrder: OrderRecord, sellOrder: OrderRecord, buyReply: nat -> OrderRecord)
    requires InitDivisible(config, last) && config.grids >= 1
    ensures
      var o := InitializeGrid(NewLedger(), config, false, [], map[], last, marketOrder, sellOrder, buyReply);
      var g := CalculateGridSize(config, last);
      var qpt := QuotePerTrade(config);
      && |o.run.log| == config.grids + 1
      && o.run.log[0] == MarketBuy(qpt / last)
      && o.run.log[1] == LimitSell(qpt / last, last + g)
      && (forall i :: 1 <= i < config.grids ==>
            o.run.log[i + 1] == LimitBuy(qpt / RungPrice(last, g, i), RungPrice(last, g, i)))
      && (last > 0.0 && config.gridsize > 0.0 ==>
            forall i :: 1 <= i < config.grids ==> RungPrice(last, g, i) < last)
  {
    var o := InitializeGrid(NewLedger(), config, false, [], map[], last, marketOrder, sellOrder, buyReply);
    assert o.run == BuildGrid(Run(NewLedger(), []), config, last, marketOrder, sellOrder, buyReply);
    var log := o.run.log;
    var g := CalculateGridSize(config, last);
    var qpt := QuotePerTrade(config);
    var requests := LadderLog(qpt, last, g, 1, config.grids);
    assert log == [] + [MarketBuy(qpt / last), LimitSell(qpt / last, last + g)] + requests;
    forall i | 1 <= i < config.grids
      ensures log[i + 1] == LimitBuy(qpt / RungPrice(last, g, i), RungPrice(last, g, i))
    {
      assert log[i + 1] == requests[i - 1];
    }
    if last > 0.0 && config.gridsize > 0.0 {
      PositiveGrid(config, last);
      RungsBelowPrice(last, CalculateGridSize(config, last), config.grids);
    }
  }

  /** A positive percentage of a positive price is a positive grid. */
  lemma PositiveGrid(config: BotConfig, last: real)
    requires last > 0.0 && config.gridsize > 0.0
    ensures CalculateGridSize(config, last) > 0.0
  {
    var f := GridSizePercent(config);
    assert f > 0.0;
    assert last * f > 0.0;
  }

  /** With a positive grid, every rung from 1 on is strictly below the reference price. */
  lemma RungsBelowPrice(last: real, g: real, grids: int)
    requires g > 0.0
    ensures forall i :: 1 <= i < grids ==> RungPrice(last, g, i) < last
  {
    forall i | 1 <= i < grids
      ensures RungPrice(last, g, i) < last
    {
      PositiveStep(g, i);
    }
  }

  /** A positive grid times a positive rung index is positive. */
  lemma PositiveStep(g: real, i: int)
    requires g > 0.0 && i >= 1
    ensures (i as real) * g > 0.0
  {
    assert (i as real) * g >= g by {
      assert (i as real) * g == g + ((i - 1) as real) * g;
      NonNegativeStep(g, i - 1);
    }
  }

  /** A non-negative grid times a non-negative rung index is non-negative. */
  lemma NonNegativeStep(g: real, i: int)
    requires g >= 0.0 && i >= 0
    ensures (i as real) * g >= 0.0
  {
  }

  // ---------------------------------------------------------------------------
  // What a health check may send
  // ---------------------------------------------------------------------------

  /** A health check that raises nothing only adds: at most one limit sell plus one
      limit buy per missing buy, nothing cancelled, no market order, no rung dropped,
      and each existing rung keeps its buy leg. */
  lemma HealthCheckOnlyAdds(
    ledger: Ledger, config: BotConfig, openOrders: seq<OpenOrder>, free: map<string, real>,
    currentPrice: Option<real>, sellOrder: OrderRecord, buyReply: nat -> OrderRecord)
    requires HealthDivisible(config, ledger, openOrders, currentPrice)
    ensures
      var o := CheckOrderHealth(ledger, config, openOrders, free, currentPrice, sellOrder, buyReply);
      var missing := MissingBuys(config, openOrders);
      var added := if missing > 0 then missing else 0;
      o.raised.None? ==>
        && |o.run.log| == (if SellWanted(config, openOrders, free) then 1 else 0) + added
        && (forall k :: 0 <= k < |o.run.log| ==> o.run.log[k].LimitSell? || o.run.log[k].LimitBuy?)
        && (SellWanted(config, openOrders, free) ==> o.run.log[0].LimitSell?)
        && (forall k :: (if SellWanted(config, openOrders, free) then 1 else 0) <= k < |o.run.log| ==> o.run.log[k].LimitBuy?)
        && |o.run.ledger.pairs| == |ledger.pairs| + added
        && (forall i :: 0 <= i < |ledger.pairs| ==> SameBuyLeg(o.run.ledger.pairs[i], ledger.pairs[i]))
  {
    var o := CheckOrderHealth(ledger, config, openOrders, free, currentPrice, sellOrder, buyReply);
    if o.raised.None? {
      HealthLogOnlyLimits(ledger, config, openOrders, free, currentPrice);
      HealthPairsKeepRungs(ledger, config, openOrders, free, sellOrder, buyReply);
    }
  }

  /** The requests of a health check that raises nothing: the optional sell first,
      then the missing buys, all of them limit orders. */
  lemma HealthLogOnlyLimits(
    ledger: Ledger, config: BotConfig, openOrders: seq<OpenOrder>, free: map<string, real>, currentPrice: Option<real>)
    requires HealthDivisible(config, ledger, openOrders, currentPrice)
    requires !HealthKeyError(config, openOrders, free) && !HealthTypeError(config, ledger, openOrders, free, currentPrice)
    ensures
      var log := HealthLog(ledger, config, openOrders, free, currentPrice);
      var missing := MissingBuys(config, openOrders);
      && |log| == (if SellWanted(config, openOrders, free) then 1 else 0) + (if missing > 0 then missing else 0)
      && (forall k :: 0 <= k < |log| ==> log[k].LimitSell? || log[k].LimitBuy?)
      && (SellWanted(config, openOrders, free) ==> log[0].LimitSell?)
      && (forall k :: (if SellWanted(config, openOrders, free) then 1 else 0) <= k < |log| ==> log[k].LimitBuy?)
  {
    var log := HealthLog(ledger, config, openOrders, free, currentPrice);
    var missing := MissingBuys(config, openOrders);
    var sells: seq<Request> :=
      if SellWanted(config, openOrders, free)
      then [LimitSell(free[BaseCurrency(config.pair)], currentPrice.value + ledger.gridSize.value)] else [];
    if missing > 0 {
      var g := ledger.gridSize.value;
      var ladder := LadderLog(QuotePerTrade(config), HealthBase(SideFilter(openOrders, "buy"), currentPrice, g), g, 0, missing);
      assert log == sells + ladder;
      forall k | 0 <= k < |log|
        ensures log[k].LimitSell? || log[k].LimitBuy?
        ensures k >= |sells| ==> log[k].LimitBuy?
      {
        if k >= |sells| {
          assert log[k] == ladder[k - |sells|];
        }
      }
    } else {
      assert log == sells + [];
    }
  }

  /** Two rungs carry the same buy leg: id, price, amount and timestamp. */
  predicate SameBuyLeg(p: OrderPair, q: OrderPair) {
    p.buyOrderId == q.buyOrderId && p.buyPrice == q.buyPrice && p.amount == q.amount && p.timestamp == q.timestamp
  }

  /** The rungs after a health check: the old rungs, each with its buy leg, then one
      new rung per missing buy. */
  lemma HealthPairsKeepRungs(
    ledger: Ledger, config: BotConfig, openOrders: seq<OpenOrder>, free: map<string, real>,
    sellOrder: OrderRecord, buyReply: nat -> OrderRecord)
    ensures
      var pairs := HealthPairs(ledger, config, openOrders, free, sellOrder, buyReply);
      var missing := MissingBuys(config, openOrders);
      && |pairs| == |ledger.pairs| + (if missing > 0 then missing else 0)
      && (forall i :: 0 <= i < |ledger.pairs| ==> SameBuyLeg(pairs[i], ledger.pairs[i]))
  {
    var pairs := HealthPairs(ledger, config, openOrders, free, sellOrder, buyReply);
    var kept := if SellWanted(config, openOrders, free) then AttachSell(ledger.pairs, sellOrder.id, sellOrder.price) else ledger.pairs;
    assert forall i :: 0 <= i < |ledger.pairs| ==> SameBuyLeg(kept[i], ledger.pairs[i]);
    assert forall i :: 0 <= i < |ledger.pairs| ==> pairs[i] == kept[i];
  }

  // ---------------------------------------------------------------------------
  // The health ladder's first rung
  // ---------------------------------------------------------------------------

  /** As written, when some buys are still open the replacement ladder starts at the
      lowest open buy's own price (rung 0 is `base - 0 * grid`), so the first buy the
      health check places duplicates a price an open buy already holds. */
  lemma HealthLadderRepeatsLowestBuy(
    ledger: Ledger, config: BotConfig, openOrders: seq<OpenOrder>, free: map<string, real>,
    currentPrice: Option<real>, sellOrder: OrderRecord, buyReply: nat -> OrderRecord)
    requires HealthDivisible(config, ledger, openOrders, currentPrice)
    requires MissingBuys(config, openOrders) > 0 && |SideFilter(openOrders, "buy")| > 0
    ensures
      var o := CheckOrderHealth(ledger, config, openOrders, free, currentPrice, sellOrder, buyReply);
      var k := if SellWanted(config, openOrders, free) then 1 else 0;
      o.raised.None? ==>
        && k < |o.run.log|
        && o.run.log[k].LimitBuy?
        && exists b :: b in openOrders && b.side == "buy" && b.price == o.run.log[k].price
  {
    var o := CheckOrderHealth(ledger, config, openOrders, free, currentPrice, sellOrder, buyReply);
    if o.raised.None? {
      var buys := SideFilter(openOrders, "buy");
      var g := ledger.gridSize.value;
      var missing := MissingBuys(config, openOrders);
      var k := if SellWanted(config, openOrders, free) then 1 else 0;
      var ladder := LadderLog(QuotePerTrade(config), HealthBase(buys, currentPrice, g), g, 0, missing);
      assert o.run.log[k] == ladder[0];
      var low := LowestPrice(buys);
      var j :| 0 <= j < |buys| && buys[j].price == low;
      assert buys[j] in buys;
      assert RungPrice(low, g, 0) == low;
    }
  }

  /** Corrected ladder base: one grid below the lowest open buy, or one grid below
      the cached price when no buy is open. */
  function CorrectedHealthBase(buys: seq<OpenOrder>, currentPrice: Option<real>, g: real): (base: real)
    requires |buys| > 0 || currentPrice.Some?
    ensures |buys| > 0 ==> forall b :: b in buys ==> base <= b.price - g
    ensures |buys| > 0 ==> exists b :: b in buys && base == b.price - g
    ensures |buys| == 0 ==> base == currentPrice.value - g
  {
    if |buys| > 0 then
      var low := LowestPrice(buys);
      assert forall b :: b in buys ==> low <= b.price by {
        forall b | b in buys ensures low <= b.price {
          var j :| 0 <= j < |buys| && buys[j] == b;
        }
      }
      var j :| 0 <= j < |buys| && buys[j].price == low;
      assert buys[j] in buys;
      low - g
    else
      currentPrice.value - g
  }

  /** The missing-buy loop of the health check with the corrected base. With a
      positive grid every buy it places is strictly below every open buy. */
  function RepairLadderCorrected(
    run: Run, config: BotConfig, openOrders: seq<OpenOrder>, currentPrice: Option<real>, g: real,
    buyReply: nat -> OrderRecord): (r: Run)
    requires |SideFilter(openOrders, "buy")| > 0 || currentPrice.Some?
    requires LadderNonZero(CorrectedHealthBase(SideFilter(openOrders, "buy"), currentPrice, g), g, 0, MissingBuys(config, openOrders))
    ensures r.ledger.pairs == run.ledger.pairs + LadderPairs(buyReply, 0, MissingBuys(config, openOrders))
    ensures |r.log| == |run.log| + RungCount(0, MissingBuys(config, openOrders))
    ensures r.log[..|run.log|] == run.log
    ensures MissingBuys(config, openOrders) > 0 ==>
      r.log == run.log + LadderLog(QuotePerTrade(config), CorrectedHealthBase(SideFilter(openOrders, "buy"), currentPrice, g), g, 0, MissingBuys(config, openOrders))
    ensures g > 0.0 ==>
      forall k :: |run.log| <= k < |r.log| ==>
        r.log[k].LimitBuy? && forall b :: b in openOrders && b.side == "buy" ==> r.log[k].price < b.price
  {
    var buys := SideFilter(openOrders, "buy");
    var missing := MissingBuys(config, openOrders);
    var base := CorrectedHealthBase(buys, currentPrice, g);
    var qpt := if missing > 0 then QuotePerTrade(config) else 0.0;
    var r := PlaceLadder(run, qpt, base, g, 0, missing, buyReply);
    assert r.log[..|run.log|] == run.log;
    CorrectedRungsBelowOpenBuys(run.log, r.log, openOrders, currentPrice, qpt, g, missing);
    r
  }

  /** Each request of a ladder laid from the corrected base lies strictly below every
      open buy when the grid is positive. */
  lemma CorrectedRungsBelowOpenBuys(
    pre: seq<Request>, log: seq<Request>, openOrders: seq<OpenOrder>, currentPrice: Option<real>,
    qpt: real, g: real, missing: int)
    requires |SideFilter(openOrders, "buy")| > 0 || currentPrice.Some?
    requires LadderNonZero(CorrectedHealthBase(SideFilter(openOrders, "buy"), currentPrice, g), g, 0, missing)
    requires log == pre + LadderLog(qpt, CorrectedHealthBase(SideFilter(openOrders, "buy"), currentPrice, g), g, 0, missing)
    ensures g > 0.0 ==>
      forall k :: |pre| <= k < |log| ==>
        log[k].LimitBuy? && forall b :: b in openOrders && b.side == "buy" ==> log[k].price < b.price
  {
    var buys := SideFilter(openOrders, "buy");
    var base := CorrectedHealthBase(buys, currentPrice, g);
    var ladder := LadderLog(qpt, base, g, 0, missing);
    if g > 0.0 {
      forall b | b in openOrders && b.side == "buy"
        ensures base < b.price
      {
        assert b in buys;
      }
      forall k | |pre| <= k < |log|
        ensures log[k].LimitBuy? && log[k].price <= base
      {
        var i := k - |pre|;
        assert log[k] == ladder[i] == LadderBuy(qpt, base, g, i);
        NonNegativeStep(g, i);
      }
    }
  }

  // ---------------------------------------------------------------------------
  // Scenarios on the unit-test fixture
  // ---------------------------------------------------------------------------

  function MockFeeCoin(): FeeCoinConfig {
    FeeCoinConfig(true, "BNB", 10.0, 20.0)
  }

  function MockConfig(): BotConfig {
    BotConfig("TestBot", "binance", "test_key", "test_secret", "BTC/USDT", 1000.0, 10, 1.0, true, false,
              "localhost:8080", Some(MockFeeCoin()))
  }

  /** Venue prices: BTC/USDT at 45000, anything else (BNB/USDT) at 300. */
  function MockQuote(): string -> real {
    s => if s == "BTC/USDT" then 45000.0 else 300.0
  }

  /** A 1% grid at 45000 is 450 wide. */
  lemma MockGridSizing()
    ensures CalculateGridSize(MockConfig(), 45000.0) == 450.0
  {
  }

  /** The configuration's derived amounts: 1000 over 10 grids is 100 and over 5 is 200;
      a 2.5 percent grid is the fraction 0.025. */
  lemma MockConfigSizing()
    ensures QuotePerTrade(MockConfig()) == 100.0
    ensures QuotePerTrade(MockConfig().(grids := 5)) == 200.0
    ensures GridSizePercent(MockConfig().(gridsize := 2.5)) == 0.025
  {
  }

  /** A buy fill at 45000 with a 450 grid requests the sell at 45450 and the buy at
      44550. On an empty ledger there is no rung to take the sell leg, so the only
      rung afterwards is the replacement buy's own record. */
  lemma BuyFillOnEmptyLedger()
    ensures
      var ts := 1640995200000;
      var trade := NewTrade("buy_1", "buy", 45000.0, 0.1, 4500.0, ts);
      var sold := OrderRecord("limit_sell_1", 46000.0, 0.1, ts);
      var bought := OrderRecord("limit_buy_1", 44000.0, 0.1, ts);
      var o := HandleFilledOrder(Ledger([], [], Some(450.0)), MockConfig(), trade, sold, bought);
      && o.raised.None?
      && o.run.log == [LimitSell(0.1, 45450.0), LimitBuy(100.0 / 44550.0, 44550.0)]
      && o.run.ledger.pairs == [PairOf(bought)]
  {
  }

  /** A sell fill naming the only rung's sell leg records the fill and drops the rung,
      and sends nothing: no replacement buy is placed on a sell fill. */
  lemma SellFillOnMatchingRung()
    ensures
      var ts := 1640995200000;
      var rung := OrderPair("buy_1", Some("sell_1"), 45000.0, Some(45450.0), 0.1, ts);
      var trade := NewTrade("sell_1", "sell", 45450.0, 0.1, 4545.0, ts);
      var o := HandleFilledOrder(Ledger([rung], [], Some(450.0)), MockConfig(), trade,
                                 OrderRecord("limit_sell_1", 46000.0, 0.1, ts), OrderRecord("limit_buy_1", 44000.0, 0.1, ts));
      && o.raised.None?
      && o.run.log == []
      && o.run.ledger.completed == [trade]
      && o.run.ledger.pairs == []
  {
  }

  /** The fee-coin pass as written leaves the pair's cache holding the fee coin's price. */
  lemma FeeTickerOverwritesPairPrice()
    ensures
      var before := TickerCache(Some(45000.0));
      var tick := FeeCoinTickAsWritten(MockConfig(), before, map["BTC" := 0.1, "BNB" := 1.0], MockQuote());
      && HoldsPairPrice(MockConfig(), before, MockQuote())
      && tick.cache.currentPrice == Some(300.0)
      && !HoldsPairPrice(MockConfig(), tick.cache, MockQuote())
  {
    assert FeeSymbol(MockFeeCoin()) != "BTC/USDT" by {
      assert FeeSymbol(MockFeeCoin()) == "BNB/USDT";
    }
  }

  /** A health check that then finds no open sell prices the replacement sell from that
      cache: one grid above 300 instead of one grid above 45000. */
  lemma HealthSellAfterFeePass()
    ensures
      var ledger := Ledger([], [], Some(450.0));
      var open := [OpenOrder("buy_1", "buy", 44000.0, 0.1)];
      var ts := 1640995200000;
      && HealthDivisible(MockConfig(), ledger, open, Some(300.0))
      && var o := CheckOrderHealth(
           ledger, MockConfig(), open, map["BTC" := 0.1, "BNB" := 1.0], Some(300.0),
           OrderRecord("limit_sell_1", 750.0, 0.1, ts), _ => OrderRecord("limit_buy_1", 44000.0, 0.1, ts));
         o.raised.None? && o.run.log[0] == LimitSell(0.1, 750.0)
  {
    BaseCurrencyOfPair("BTC", "USDT");
    assert "BTC" + "/" + "USDT" == MockConfig().pair;
    assert BaseCurrency(MockConfig().pair) == "BTC";
    var buy := OpenOrder("buy_1", "buy", 44000.0, 0.1);
    assert SideFilter([buy], "buy") == [buy];
    assert SideFilter([buy], "sell") == [];
    assert MissingBuys(MockConfig(), [buy]) == 9;
    assert HealthBase([buy], Some(300.0), 450.0) == 44000.0;
    assert LadderNonZero(44000.0, 450.0, 0, 9);
    var ledger := Ledger([], [], Some(450.0));
    var free := map["BTC" := 0.1, "BNB" := 1.0];
    assert HealthDivisible(MockConfig(), ledger, [buy], Some(300.0));
    assert !HealthKeyError(MockConfig(), [buy], free);
    assert SellWanted(MockConfig(), [buy], free);
    assert !HealthTypeError(MockConfig(), ledger, [buy], free, Some(300.0));
    var log := HealthLog(ledger, MockConfig(), [buy], free, Some(300.0));
    assert log[0] == LimitSell(0.1, 300.0 + 450.0);
  }

  /** With the corrected fetch the same pass keeps the pair's price in the cache. */
  lemma FeePassKeepsPairPrice()
    ensures
      var before := TickerCache(Some(45000.0));
      var tick := FeeCoinTick(MockConfig(), before, map["BTC" := 0.1, "BNB" := 1.0], MockQuote());
      tick.cache.currentPrice == Some(45000.0)
  {
    assert FeeSymbol(MockFeeCoin()) != "BTC/USDT" by {
      assert FeeSymbol(MockFeeCoin()) == "BNB/USDT";
    }
  }

  /** As written, a BNB balance worth 3 USDT (under the 10 USDT threshold) triggers a
      market buy of 20/300 units on BTC/USDT, about 3000 USDT of BTC, instead of
      20 USDT of BNB. */
  lemma TopUpBuysGridPair()
    ensures
      var tick := FeeCoinTickAsWritten(MockConfig(), TickerCache(Some(45000.0)), map["BNB" := 0.01], MockQuote());
      && tick.order == Some(TopUp("BTC/USDT", 20.0 / 300.0))
      && tick.order.value.amount * MockQuote()("BTC/USDT") == 3000.0
  {
    assert FeeSymbol(MockFeeCoin()) != "BTC/USDT" by {
      assert FeeSymbol(MockFeeCoin()) == "BNB/USDT";
    }
  }

  /** The corrected pass buys 20 USDT worth of BNB on BNB/USDT. */
  lemma TopUpBuysFeeCoin()
    ensures
      var tick := FeeCoinTick(MockConfig(), TickerCache(Some(45000.0)), map["BNB" := 0.01], MockQuote());
      && tick.order == Some(TopUp("BNB/USDT", 20.0 / 300.0))
      && tick.order.value.amount * MockQuote()("BNB/USDT") == 20.0
  {
    assert FeeSymbol(MockFeeCoin()) == "BNB/USDT";
    assert FeeSymbol(MockFeeCoin()) != "BTC/USDT" by {
      assert FeeSymbol(MockFeeCoin()) == "BNB/USDT";
    }
  }
}

=== FILE: invariants.dfy ===
/**
 * Invariants of the grid ledger.
 *
 * `SellLegsFirst`: the rungs that carry a sell leg form a prefix of the rung
 * list and the unpaired rungs form the suffix. Every operation keeps it, so
 * every ledger reachable from the constructor's empty state has it.
 *
 * `Settled`: no completed sell fill still names a live rung's sell leg. With
 * distinct sell ids every operation keeps it too; the profit calculation in
 * module Bot relies on this.
 */
module GridInvariants {
  import opened Wrappers
  import opened Models
  import opened Exchange
  import opened Strategy

  predicate SellLegsFirst(pairs: seq<OrderPair>) {
    forall i, j :: 0 <= i < j < |pairs| && pairs[j].sellOrderId.Some? ==> pairs[i].sellOrderId.Some?
  }

  /** Under the invariant, the first unpaired rung splits the list into paired and unpaired parts. */
  lemma SplitAtFirstUnpaired(pairs: seq<OrderPair>)
    requires SellLegsFirst(pairs)
    ensures forall i :: 0 <= i < |pairs| ==> (pairs[i].sellOrderId.Some? <==> i < FirstUnpaired(pairs))
  {
    var k := FirstUnpaired(pairs);
    forall i | 0 <= i < |pairs| && k <= i
      ensures pairs[i].sellOrderId.None?
    {
    }
  }

  lemma AttachSellKeepsSellLegsFirst(pairs: seq<OrderPair>, id: string, price: real)
    requires SellLegsFirst(pairs)
    ensures SellLegsFirst(AttachSell(pairs, id, price))
  {
    SplitAtFirstUnpaired(pairs);
    var r := AttachSell(pairs, id, price);
    var k := FirstUnpaired(pairs);
    forall i, j | 0 <= i < j < |r| && r[j].sellOrderId.Some?
      ensures r[i].sellOrderId.Some?
    {
      if j != k {
        assert pairs[j].sellOrderId.Some?;
      }
    }
  }

  lemma AppendUnpairedKeepsSellLegsFirst(a: seq<OrderPair>, b: seq<OrderPair>)
    requires SellLegsFirst(a)
    requires forall j :: 0 <= j < |b| ==> b[j].sellOrderId.None?
    ensures SellLegsFirst(a + b)
  {
    var s := a + b;
    forall i, j | 0 <= i < j < |s| && s[j].sellOrderId.Some?
      ensures s[i].sellOrderId.Some?
    {
    }
  }

  lemma RemoveAtKeepsSellLegsFirst(pairs: seq<OrderPair>, k: nat)
    requires k < |pairs|
    requires SellLegsFirst(pairs)
    ensures SellLegsFirst(RemoveAt(pairs, k))
  {
    var r := RemoveAt(pairs, k);
    forall i, j | 0 <= i < j < |r| && r[j].sellOrderId.Some?
      ensures r[i].sellOrderId.Some?
    {
      var j' := if j < k then j else j + 1;
      var i' := if i < k then i else i + 1;
      assert r[j] == pairs[j'] && r[i] == pairs[i'];
    }
  }

  /** Every initialisation keeps the invariant, whatever the venue replies. */
  lemma InitializeGridKeepsSellLegsFirst(
    ledger: Ledger, config: BotConfig, freshStart: bool,
    openOrders: seq<OpenOrder>, free: map<string, real>, last: real,
    marketOrder: OrderRecord, sellOrder: OrderRecord, buyReply: nat -> OrderRecord)
    requires FreshStartRaises(config, freshStart, free) || InitDivisible(config, last)
    requires SellLegsFirst(ledger.pairs)
    ensures SellLegsFirst(InitializeGrid(ledger, config, freshStart, openOrders, free, last, marketOrder, sellOrder, buyReply).run.ledger.pairs)
  {
    var o := InitializeGrid(ledger, config, freshStart, openOrders, free, last, marketOrder, sellOrder, buyReply);
    if o.raised.None? {
      var grown := ledger.pairs + [PairOf(marketOrder)];
      AppendUnpairedKeepsSellLegsFirst(ledger.pairs, [PairOf(marketOrder)]);
      AttachSellKeepsSellLegsFirst(grown, sellOrder.id, sellOrder.price);
      AppendUnpairedKeepsSellLegsFirst(AttachSell(grown, sellOrder.id, sellOrder.price), LadderPairs(buyReply, 1, config.grids));
    }
  }

  /** Every fill keeps the invariant, whatever the venue replies. */
  lemma HandleFilledOrderKeepsSellLegsFirst(ledger: Ledger, config: BotConfig, trade: Trade, sellOrder: OrderRecord, buyOrder: OrderRecord)
    requires FillDivisible(config, ledger, trade)
    requires SellLegsFirst(ledger.pairs)
    ensures SellLegsFirst(HandleFilledOrder(ledger, config, trade, sellOrder, buyOrder).run.ledger.pairs)
  {
    if trade.side == "buy" && ledger.gridSize.Some? {
      AttachSellKeepsSellLegsFirst(ledger.pairs, sellOrder.id, sellOrder.price);
      AppendUnpairedKeepsSellLegsFirst(AttachSell(ledger.pairs, sellOrder.id, sellOrder.price), [PairOf(buyOrder)]);
    } else if trade.side == "sell" && FirstSellMatch(ledger.pairs, trade.orderId) < |ledger.pairs| {
      RemoveAtKeepsSellLegsFirst(ledger.pairs, FirstSellMatch(ledger.pairs, trade.orderId));
    }
  }

  /** Every health check keeps the invariant, whatever the venue replies. */
  lemma CheckOrderHealthKeepsSellLegsFirst(
    ledger: Ledger, config: BotConfig, openOrders: seq<OpenOrder>, free: map<string, real>,
    currentPrice: Option<real>, sellOrder: OrderRecord, buyReply: nat -> OrderRecord)
    requires HealthDivisible(config, ledger, openOrders, currentPrice)
    requires SellLegsFirst(ledger.pairs)
    ensures SellLegsFirst(CheckOrderHealth(ledger, config, openOrders, free, currentPrice, sellOrder, buyReply).run.ledger.pairs)
  {
    var o := CheckOrderHealth(ledger, config, openOrders, free, currentPrice, sellOrder, buyReply);
    if o.raised.None? {
      var missing := MissingBuys(config, openOrders);
      var attached := if SellWanted(config, openOrders, free) then AttachSell(ledger.pairs, sellOrder.id, sellOrder.price) else ledger.pairs;
      var ladder := if missing > 0 then LadderPairs(buyReply, 0, missing) else [];
      assert o.run.ledger.pairs == HealthPairs(ledger, config, openOrders, free, sellOrder, buyReply) == attached + ladder;
      AttachSellKeepsSellLegsFirst(ledger.pairs, sellOrder.id, sellOrder.price);
      AppendUnpairedKeepsSellLegsFirst(attached, ladder);
    }
  }

  // ---------------------------------------------------------------------------
  // Traces from the constructor's state
  // ---------------------------------------------------------------------------

  /** One call into the strategy, with the venue's replies to it. */
  datatype Event =
    | Initialize(freshStart: bool, openOrders: seq<OpenOrder>, free: map<string, real>, last: real,
                 marketOrder: OrderRecord, sellOrder: OrderRecord, buyReply: nat -> OrderRecord)
    | Fill(trade: Trade, sellOrder: OrderRecord, buyOrder: OrderRecord)
    | HealthCheck(openOrders: seq<OpenOrder>, free: map<string, real>, currentPrice: Option<real>,
                  sellOrder: OrderRecord, buyReply: nat -> OrderRecord)

  /** The event's divisions are defined in this ledger. */
  predicate Defined(config: BotConfig, ledger: Ledger, e: Event) {
    match e
    case Initialize(fs, _, free, last, _, _, _) => FreshStartRaises(config, fs, free) || InitDivisible(config, last)
    case Fill(trade, _, _) => FillDivisible(config, ledger, trade)
    case HealthCheck(open, _, cp, _, _) => HealthDivisible(config, ledger, open, cp)
  }

  /** The ledger after one event (whether or not it raised). */
  function Apply(config: BotConfig, ledger: Ledger, e: Event): Ledger
    requires Defined(config, ledger, e)
  {
    match e
    case Initialize(fs, open, free, last, m, s, b) => InitializeGrid(ledger, config, fs, open, free, last, m, s, b).run.ledger
    case Fill(trade, s, b) => HandleFilledOrder(ledger, config, trade, s, b).run.ledger
    case HealthCheck(open, free, cp, s, b) => CheckOrderHealth(ledger, config, open, free, cp, s, b).run.ledger
  }

  /** Every event of the trace is defined in the ledger it meets. */
  predicate Replayable(config: BotConfig, ledger: Ledger, events: seq<Event>)
    decreases |events|
  {
    |events| == 0 || (Defined(config, ledger, events[0]) && Replayable(config, Apply(config, ledger, events[0]), events[1..]))
  }

  function Replay(config: BotConfig, ledger: Ledger, events: seq<Event>): Ledger
    requires Replayable(config, ledger, events)
    decreases |events|
  {
    if |events| == 0 then ledger else Replay(config, Apply(config, ledger, events[0]), events[1..])
  }

  lemma ApplyKeepsSellLegsFirst(config: BotConfig, ledger: Ledger, e: Event)
    requires Defined(config, ledger, e)
    requires SellLegsFirst(ledger.pairs)
    ensures SellLegsFirst(Apply(config, ledger, e).pairs)
  {
    match e
    case Initialize(fs, open, free, last, m, s, b) =>
      InitializeGridKeepsSellLegsFirst(ledger, config, fs, open, free, last, m, s, b);
    case Fill(trade, s, b) =>
      HandleFilledOrderKeepsSellLegsFirst(ledger, config, trade, s, b);
    case HealthCheck(open, free, cp, s, b) =>
      CheckOrderHealthKeepsSellLegsFirst(ledger, config, open, free, cp, s, b);
  }

  /** Every ledger reachable from the constructor's empty state keeps sell legs first. */
  lemma {:induction false} ReachableSellLegsFirst(config: BotConfig, ledger: Ledger, events: seq<Event>)
    requires Replayable(config, ledger, events)
    requires ledger == NewLedger() || SellLegsFirst(ledger.pairs)
    ensures SellLegsFirst(Replay(config, ledger, events).pairs)
    decreases |events|
  {
    if |events| > 0 {
      ApplyKeepsSellLegsFirst(config, ledger, events[0]);
      ReachableSellLegsFirst(config, Apply(config, ledger, events[0]), events[1..]);
    }
  }

  // ---------------------------------------------------------------------------
  // Completed sells never name a live rung
  // ---------------------------------------------------------------------------

  /** No two live rungs share a sell leg id. */
  predicate UniqueSellIds(pairs: seq<OrderPair>) {
    forall i, j :: 0 <= i < j < |pairs| && pairs[i].sellOrderId.Some? ==> pairs[j].sellOrderId != pairs[i].sellOrderId
  }

  /** No completed sell fill is the sell leg of a live rung. */
  predicate Settled(ledger: Ledger) {
    forall t :: t in ledger.completed && t.side == "sell" ==> FirstSellMatch(ledger.pairs, t.orderId) == |ledger.pairs|
  }

  /** The id is neither a live sell leg nor a completed fill's id. */
  predicate FreshSellId(ledger: Ledger, id: string) {
    && (forall i :: 0 <= i < |ledger.pairs| ==> ledger.pairs[i].sellOrderId != Some(id))
    && (forall t :: t in ledger.completed ==> t.orderId != id)
  }

  lemma NoMatchMeansNone(pairs: seq<OrderPair>, id: string)
    requires forall i :: 0 <= i < |pairs| ==> pairs[i].sellOrderId != Some(id)
    ensures FirstSellMatch(pairs, id) == |pairs|
  {
  }

  /** A sell fill drops the only rung carrying that id, so the fill it records
      names no live rung, and earlier fills still name none. */
  lemma SellFillKeepsSettled(ledger: Ledger, config: BotConfig, trade: Trade, sellOrder: OrderRecord, buyOrder: OrderRecord)
    requires trade.side == "sell"
    requires UniqueSellIds(ledger.pairs) && Settled(ledger)
    ensures
      var after := HandleFilledOrder(ledger, config, trade, sellOrder, buyOrder).run.ledger;
      UniqueSellIds(after.pairs) && Settled(after)
  {
    var k := FirstSellMatch(ledger.pairs, trade.orderId);
    var after := HandleFilledOrder(ledger, config, trade, sellOrder, buyOrder).run.ledger;
    if k < |ledger.pairs| {
      var r := RemoveAt(ledger.pairs, k);
      assert forall i :: 0 <= i < |r| ==> r[i] == ledger.pairs[if i < k then i else i + 1];
      forall t | t in after.completed && t.side == "sell"
        ensures FirstSellMatch(r, t.orderId) == |r|
      {
        if t in ledger.completed {
          NoMatchMeansNone(r, t.orderId);
        } else {
          assert t == trade;
          NoMatchMeansNone(r, t.orderId);
        }
      }
    }
  }

  /** A buy fill whose new sell id is fresh keeps the sell ids distinct and the ledger settled. */
  lemma BuyFillKeepsSettled(ledger: Ledger, config: BotConfig, trade: Trade, sellOrder: OrderRecord, buyOrder: OrderRecord)
    requires trade.side == "buy" && FillDivisible(config, ledger, trade)
    requires UniqueSellIds(ledger.pairs) && Settled(ledger)
    requires FreshSellId(ledger, sellOrder.id)
    ensures
      var after := HandleFilledOrder(ledger, config, trade, sellOrder, buyOrder).run.ledger;
      UniqueSellIds(after.pairs) && Settled(after)
  {
    var after := HandleFilledOrder(ledger, config, trade, sellOrder, buyOrder).run.ledger;
    if ledger.gridSize.Some? {
      var a := AttachSell(ledger.pairs, sellOrder.id, sellOrder.price);
      var r := a + [PairOf(buyOrder)];
      assert after.pairs == r;
      forall t | t in after.completed && t.side == "sell"
        ensures FirstSellMatch(r, t.orderId) == |r|
      {
        assert FirstSellMatch(ledger.pairs, t.orderId) == |ledger.pairs|;
        assert t.orderId != sellOrder.id;
        NoMatchMeansNone(r, t.orderId);
      }
    }
  }

  /** Appending bare rungs keeps the sell ids distinct and the ledger settled. */
  lemma AppendBareKeepsSettled(ledger: Ledger, extra: seq<OrderPair>)
    requires UniqueSellIds(ledger.pairs) && Settled(ledger)
    requires forall j :: 0 <= j < |extra| ==> extra[j].sellOrderId.None?
    ensures UniqueSellIds(ledger.pairs + extra)
    ensures Settled(ledger.(pairs := ledger.pairs + extra))
  {
    var r := ledger.pairs + extra;
    forall t | t in ledger.completed && t.side == "sell"
      ensures FirstSellMatch(r, t.orderId) == |r|
    {
      assert FirstSellMatch(ledger.pairs, t.orderId) == |ledger.pairs|;
      assert forall i :: 0 <= i < |r| ==> r[i] == (if i < |ledger.pairs| then ledger.pairs[i] else extra[i - |ledger.pairs|]);
      NoMatchMeansNone(r, t.orderId);
    }
  }

  /** Attaching a fresh sell id to the first bare rung, then appending bare rungs,
      keeps the sell ids distinct and the ledger settled. */
  lemma AttachFreshKeepsSettled(ledger: Ledger, id: string, price: real, extra: seq<OrderPair>)
    requires UniqueSellIds(ledger.pairs) && Settled(ledger) && FreshSellId(ledger, id)
    requires forall j :: 0 <= j < |extra| ==> extra[j].sellOrderId.None?
    ensures UniqueSellIds(AttachSell(ledger.pairs, id, price) + extra)
    ensures Settled(ledger.(pairs := AttachSell(ledger.pairs, id, price) + extra))
  {
    var pairs := ledger.pairs;
    var k := FirstUnpaired(pairs);
    var r := AttachSell(pairs, id, price) + extra;
    assert forall i :: 0 <= i < |r| ==>
      r[i].sellOrderId == (if i < |pairs| then (if i == k then Some(id) else pairs[i].sellOrderId) else None);
    forall t | t in ledger.completed && t.side == "sell"
      ensures FirstSellMatch(r, t.orderId) == |r|
    {
      assert FirstSellMatch(pairs, t.orderId) == |pairs|;
      NoMatchMeansNone(r, t.orderId);
    }
  }

  /** Every initialisation whose sell reply carries a fresh id keeps the ledger settled. */
  lemma InitializeGridKeepsSettled(
    ledger: Ledger, config: BotConfig, freshStart: bool,
    openOrders: seq<OpenOrder>, free: map<string, real>, last: real,
    marketOrder: OrderRecord, sellOrder: OrderRecord, buyReply: nat -> OrderRecord)
    requires FreshStartRaises(config, freshStart, free) || InitDivisible(config, last)
    requires UniqueSellIds(ledger.pairs) && Settled(ledger) && FreshSellId(ledger, sellOrder.id)
    ensures
      var after := InitializeGrid(ledger, config, freshStart, openOrders, free, last, marketOrder, sellOrder, buyReply).run.ledger;
      UniqueSellIds(after.pairs) && Settled(after)
  {
    var o := InitializeGrid(ledger, config, freshStart, openOrders, free, last, marketOrder, sellOrder, buyReply);
    if o.raised.None? {
      var grown := ledger.(pairs := ledger.pairs + [PairOf(marketOrder)]);
      AppendBareKeepsSettled(ledger, [PairOf(marketOrder)]);
      AttachFreshKeepsSettled(grown, sellOrder.id, sellOrder.price, LadderPairs(buyReply, 1, config.grids));
    }
  }

  /** Every fill keeps the ledger settled, provided a buy fill's new sell id is fresh. */
  lemma HandleFilledOrderKeepsSettled(ledger: Ledger, config: BotConfig, trade: Trade, sellOrder: OrderRecord, buyOrder: OrderRecord)
    requires FillDivisible(config, ledger, trade)
    requires UniqueSellIds(ledger.pairs) && Settled(ledger)
    requires trade.side == "buy" ==> FreshSellId(ledger, sellOrder.id)
    ensures
      var after := HandleFilledOrder(ledger, config, trade, sellOrder, buyOrder).run.ledger;
      UniqueSellIds(after.pairs) && Settled(after)
  {
    if trade.side == "buy" {
      BuyFillKeepsSettled(ledger, config, trade, sellOrder, buyOrder);
    } else if trade.side == "sell" {
      SellFillKeepsSettled(ledger, config, trade, sellOrder, buyOrder);
    }
  }

  /** Every health check keeps the ledger settled, provided the sell it may place has a fresh id. */
  lemma CheckOrderHealthKeepsSettled(
    ledger: Ledger, config: BotConfig, openOrders: seq<OpenOrder>, free: map<string, real>,
    currentPrice: Option<real>, sellOrder: OrderRecord, buyReply: nat -> OrderRecord)
    requires HealthDivisible(config, ledger, openOrders, currentPrice)
    requires UniqueSellIds(ledger.pairs) && Settled(ledger)
    requires SellWanted(config, openOrders, free) ==> FreshSellId(ledger, sellOrder.id)
    ensures
      var after := CheckOrderHealth(ledger, config, openOrders, free, currentPrice, sellOrder, buyReply).run.ledger;
      UniqueSellIds(after.pairs) && Settled(after)
  {
    var o := CheckOrderHealth(ledger, config, openOrders, free, currentPrice, sellOrder, buyReply);
    if o.raised.None? {
      var missing := MissingBuys(config, openOrders);
      var ladder := if missing > 0 then LadderPairs(buyReply, 0, missing) else [];
      if SellWanted(config, openOrders, free) {
        assert o.run.ledger.pairs == AttachSell(ledger.pairs, sellOrder.id, sellOrder.price) + ladder;
        AttachFreshKeepsSettled(ledger, sellOrder.id, sellOrder.price, ladder);
      } else {
        assert o.run.ledger.pairs == ledger.pairs + ladder;
        AppendBareKeepsSettled(ledger, ladder);
      }
    }
  }

  /** The sell id an event's sell reply carries is fresh whenever that reply is used. */
  predicate FreshFor(config: BotConfig, ledger: Ledger, e: Event) {
    match e
    case Initialize(_, _, _, _, _, s, _) => FreshSellId(ledger, s.id)
    case Fill(trade, s, _) => trade.side == "buy" ==> FreshSellId(ledger, s.id)
    case HealthCheck(open, free, _, s, _) => SellWanted(config, open, free) ==> FreshSellId(ledger, s.id)
  }

  /** Along the trace, every sell reply that is used carries a fresh id. */
  predicate SellIdsFresh(config: BotConfig, ledger: Ledger, events: seq<Event>)
    requires Replayable(config, ledger, events)
    decreases |events|
  {
    |events| == 0
    || (FreshFor(config, ledger, events[0]) && SellIdsFresh(config, Apply(config, ledger, events[0]), events[1..]))
  }

  lemma ApplyKeepsSettled(config: BotConfig, ledger: Ledger, e: Event)
    requires Defined(config, ledger, e) && FreshFor(config, ledger, e)
    requires UniqueSellIds(ledger.pairs) && Settled(ledger)
    ensures UniqueSellIds(Apply(config, ledger, e).pairs) && Settled(Apply(config, ledger, e))
  {
    match e
    case Initialize(fs, open, free, last, m, s, b) =>
      InitializeGridKeepsSettled(ledger, config, fs, open, free, last, m, s, b);
    case Fill(trade, s, b) =>
      HandleFilledOrderKeepsSettled(ledger, config, trade, s, b);
    case HealthCheck(open, free, cp, s, b) =>
      CheckOrderHealthKeepsSettled(ledger, config, open, free, cp, s, b);
  }

  /** With fresh sell ids, every ledger reachable from a settled one is settled. */
  lemma {:induction false} ReachableSettled(config: BotConfig, ledger: Ledger, events: seq<Event>)
    requires Replayable(config, ledger, events) && SellIdsFresh(config, ledger, events)
    requires UniqueSellIds(ledger.pairs) && Settled(ledger)
    ensures UniqueSellIds(Replay(config, ledger, events).pairs) && Settled(Replay(config, ledger, events))
    decreases |events|
  {
    if |events| > 0 {
      ApplyKeepsSettled(config, ledger, events[0]);
      ReachableSettled(config, Apply(config, ledger, events[0]), events[1..]);
    }
  }
}

=== FILE: models.dfy ===
/**
 * Configuration and ledger records of the grid bot: the bot configuration
 * with its two derived amounts, the rung record `OrderPair` and the fill
 * record `Trade`. Decimals are modelled as exact reals.
 */
module Models {
  import opened Wrappers

  /** Settings of the optional fee-coin top-up job. */
  datatype FeeCoinConfig = FeeCoinConfig(
    enabled: bool,
    coin: string,
    repurchaseBalance: real,
    repurchaseAmount: real)

  datatype BotConfig = BotConfig(
    name: string,
    exchange: string,
    apiKey: string,
    apiSecret: string,
    pair: string,
    investment: real,
    grids: int,
    gridsize: real,
    sandboxMode: bool,
    frontend: bool,
    frontendHost: string,
    feeCoin: Option<FeeCoinConfig>)

  /** Quote currency spent per rung: the investment split evenly over the grids.
      The source divides by `grids`, which raises when it is zero. */
  function QuotePerTrade(c: BotConfig): (q: real)
    requires c.grids != 0
    ensures q * (c.grids as real) == c.investment
  {
    c.investment / (c.grids as real)
  }

  /** The configured grid size in percent, as a fraction. */
  function GridSizePercent(c: BotConfig): (f: real)
    ensures f * 100.0 == c.gridsize
  {
    c.gridsize / 100.0
  }

  /** One ladder rung: a buy leg that always exists and a sell leg that may not yet. */
  datatype OrderPair = OrderPair(
    buyOrderId: string,
    sellOrderId: Option<string>,
    buyPrice: real,
    sellPrice: Option<real>,
    amount: real,
    timestamp: int)

  /** Builds a rung the way the source does, with the sell leg left at its default. */
  function NewOrderPair(buyOrderId: string, buyPrice: real, amount: real, timestamp: int): (p: OrderPair)
    ensures p.sellOrderId == None && p.sellPrice == None
    ensures p.buyOrderId == buyOrderId && p.buyPrice == buyPrice
    ensures p.amount == amount && p.timestamp == timestamp
  {
    OrderPair(buyOrderId, None, buyPrice, None, amount, timestamp)
  }

  /** The fee dictionary of a fill; the core never looks inside it. */
  type FeeInfo = map<string, string>

  /** A filled order as reported by the order stream. `side` is the venue's
      string ("buy", "sell", or anything else it sends). */
  datatype Trade = Trade(
    orderId: string,
    side: string,
    price: real,
    amount: real,
    cost: real,
    timestamp: int,
    fee: Option<FeeInfo>)

  /** Builds a fill the way the order watcher does, with the fee left at its default. */
  function NewTrade(orderId: string, side: string, price: real, amount: real, cost: real, timestamp: int): (t: Trade)
    ensures t.fee == None
    ensures t.orderId == orderId && t.side == side && t.price == price
    ensures t.amount == amount && t.cost == cost && t.timestamp == timestamp
  {
    Trade(orderId, side, price, amount, cost, timestamp, None)
  }

  /** The base currency of a trading pair: the text before the first '/'
      (the whole pair when it has none), as `pair.split('/')[0]` gives it. */
  function BaseCurrency(pair: string): (b: string)
    ensures b <= pair
    ensures '/' !in b
    ensures |b| < |pair| ==> pair[|b|] == '/'
  {
    if |pair| == 0 || pair[0] == '/' then "" else [pair[0]] + BaseCurrency(pair[1..])
  }

  /** The base currency of "COIN/QUOTE" is COIN whenever COIN holds no '/'. */
  lemma {:induction false} BaseCurrencyOfPair(coin: string, quote: string)
    requires '/' !in coin
    ensures BaseCurrency(coin + "/" + quote) == coin
  {
    var b := BaseCurrency(coin + "/" + quote);
    var p := coin + "/" + quote;
    assert p[|coin|] == '/';
    assert forall i :: 0 <= i < |coin| ==> p[i] == coin[i];
    assert p[..|coin|] == coin;
  }
}

=== FILE: strategy.dfy ===
/**
 * The grid-order ledger of `GridStrategy`: rung pairs, completed fills and the
 * grid size, with the four operations that change them (initialisation, fill
 * handling, health check and the two placement helpers).
 *
 * Every operation is a pure transition. It receives the venue's replies as
 * parameters (ticker price, open orders, free balances, and the record each
 * placement returns) and yields the new ledger together with the log of
 * requests it sent to the venue. An exception the source would raise part-way
 * is reported in `raised`, and the run keeps whatever happened before it.
 */
module Strategy {
  import opened Wrappers
  import opened Models
  import opened Exchange

  /** The strategy's state: active rungs in list order, completed fills, grid size. */
  datatype Ledger = Ledger(pairs: seq<OrderPair>, completed: seq<Trade>, gridSize: Option<real>)

  /** The state a freshly constructed strategy starts from. */
  function NewLedger(): (l: Ledger)
    ensures l.pairs == [] && l.completed == [] && l.gridSize.None?
  {
    Ledger([], [], None)
  }

  /** Exceptions an operation can raise after it has started. */
  datatype Fault =
    | TypeError  // arithmetic with an unset grid size or an unset cached price
    | KeyError   // the base currency is missing from the venue's free balances

  /** A ledger together with the requests sent so far. */
  datatype Run = Run(ledger: Ledger, log: seq<Request>)

  /** What an operation leaves behind, and the exception it raised, if any. */
  datatype Outcome = Outcome(run: Run, raised: Option<Fault>)

  /** The grid increment for a reference price: price × gridsize / 100. */
  function CalculateGridSize(config: BotConfig, price: real): (g: real)
    ensures g * 100.0 == price * config.gridsize
  {
    price * GridSizePercent(config)
  }

  /** The rung recorded for a placed buy: the venue's record, not the request. */
  function PairOf(order: OrderRecord): (p: OrderPair)
    ensures p.buyOrderId == order.id && p.buyPrice == order.price
    ensures p.amount == order.amount && p.timestamp == order.timestamp
    ensures p.sellOrderId.None? && p.sellPrice.None?
  {
    NewOrderPair(order.id, order.price, order.amount, order.timestamp)
  }

  // ---------------------------------------------------------------------------
  // Searches over the rung list
  // ---------------------------------------------------------------------------

  /** Index of the first rung without a sell leg, or |pairs| when every rung has one. */
  function FirstUnpaired(pairs: seq<OrderPair>): (k: nat)
    ensures k <= |pairs|
    ensures forall i :: 0 <= i < k ==> pairs[i].sellOrderId.Some?
    ensures k < |pairs| ==> pairs[k].sellOrderId.None?
  {
    if |pairs| == 0 || pairs[0].sellOrderId.None? then 0 else 1 + FirstUnpaired(pairs[1..])
  }

  /** Index of the first rung whose sell leg is `id`, or |pairs| when none is. */
  function FirstSellMatch(pairs: seq<OrderPair>, id: string): (k: nat)
    ensures k <= |pairs|
    ensures forall i :: 0 <= i < k ==> pairs[i].sellOrderId != Some(id)
    ensures k < |pairs| ==> pairs[k].sellOrderId == Some(id)
  {
    if |pairs| == 0 || pairs[0].sellOrderId == Some(id) then 0 else 1 + FirstSellMatch(pairs[1..], id)
  }

  /** A rung with the given sell leg attached. */
  function WithSell(p: OrderPair, id: string, price: real): OrderPair {
    p.(sellOrderId := Some(id), sellPrice := Some(price))
  }

  /** The list after attaching a sell leg to the first rung that lacks one;
      the list is unchanged when every rung already has a sell leg. */
  function AttachSell(pairs: seq<OrderPair>, id: string, price: real): (r: seq<OrderPair>)
    ensures |r| == |pairs|
    ensures forall i :: 0 <= i < |pairs| && i != FirstUnpaired(pairs) ==> r[i] == pairs[i]
    ensures FirstUnpaired(pairs) < |pairs| ==> r[FirstUnpaired(pairs)] == WithSell(pairs[FirstUnpaired(pairs)], id, price)
    ensures forall i :: 0 <= i < |pairs| && pairs[i].sellOrderId.Some? ==> r[i] == pairs[i]
  {
    if |pairs| == 0 then []
    else if pairs[0].sellOrderId.None? then [WithSell(pairs[0], id, price)] + pairs[1..]
    else [pairs[0]] + AttachSell(pairs[1..], id, price)
  }

  /** The list without its k-th element, the others in their original order. */
  function RemoveAt(pairs: seq<OrderPair>, k: nat): (r: seq<OrderPair>)
    requires k < |pairs|
    ensures |r| == |pairs| - 1
    ensures forall i :: 0 <= i < k ==> r[i] == pairs[i]
    ensures forall i :: k <= i < |r| ==> r[i] == pairs[i + 1]
  {
    pairs[..k] + pairs[k + 1..]
  }

  // ---------------------------------------------------------------------------
  // Placement helpers
  // ---------------------------------------------------------------------------

  /** `_place_buy_order`: one limit-buy request; the returned record becomes a new last rung. */
  function PlaceBuyOrder(run: Run, amount: real, price: real, order: OrderRecord): (r: Run)
    ensures r.log == run.log + [LimitBuy(amount, price)]
    ensures r.ledger.pairs == run.ledger.pairs + [PairOf(order)]
    ensures r.ledger.completed == run.ledger.completed && r.ledger.gridSize == run.ledger.gridSize
  {
    Run(run.ledger.(pairs := run.ledger.pairs + [PairOf(order)]), run.log + [LimitBuy(amount, price)])
  }

  /** `_place_sell_order`: one limit-sell request; the returned id and price go to the
      first rung without a sell leg, and no rung is added or removed. */
  function PlaceSellOrder(run: Run, amount: real, price: real, order: OrderRecord): (r: Run)
    ensures r.log == run.log + [LimitSell(amount, price)]
    ensures r.ledger.pairs == AttachSell(run.ledger.pairs, order.id, order.price)
    ensures r.ledger.completed == run.ledger.completed && r.ledger.gridSize == run.ledger.gridSize
  {
    Run(run.ledger.(pairs := AttachSell(run.ledger.pairs, order.id, order.price)), run.log + [LimitSell(amount, price)])
  }

  // ---------------------------------------------------------------------------
  // Buy ladders
  // ---------------------------------------------------------------------------

  /** Price of ladder rung i below a base price. */
  function RungPrice(base: real, g: real, i: int): real {
    base - (i as real) * g
  }

  /** Every rung lo .. hi-1 has a non-zero price, so sizing it by division is defined. */
  predicate LadderNonZero(base: real, g: real, lo: int, hi: int) {
    forall i :: lo <= i < hi ==> RungPrice(base, g, i) != 0.0
  }

  /** Number of rungs in lo .. hi-1 (Python's `range(lo, hi)`). */
  function RungCount(lo: int, hi: int): nat {
    if hi > lo then hi - lo else 0
  }

  /** The limit buy for ladder rung i: quote per trade spent at the rung's price. */
  function LadderBuy(qpt: real, base: real, g: real, i: int): Request
    requires RungPrice(base, g, i) != 0.0
  {
    LimitBuy(qpt / RungPrice(base, g, i), RungPrice(base, g, i))
  }

  /** Reference: the requests for rungs lo .. hi-1, in order. */
  function LadderLog(qpt: real, base: real, g: real, lo: int, hi: int): (s: seq<Request>)
    requires LadderNonZero(base, g, lo, hi)
  {
    seq(RungCount(lo, hi), j requires 0 <= j < RungCount(lo, hi) => LadderBuy(qpt, base, g, lo + j))
  }

  /** Reference: the rungs recorded for replies lo .. hi-1, in order. */
  function LadderPairs(reply: nat -> OrderRecord, lo: nat, hi: int): (s: seq<OrderPair>)
    ensures |s| == RungCount(lo, hi)
    ensures forall j :: 0 <= j < |s| ==> s[j] == PairOf(reply(lo + j)) && s[j].sellOrderId.None?
  {
    seq(RungCount(lo, hi), j requires 0 <= j < RungCount(lo, hi) => PairOf(reply(lo + j)))
  }

  /** The loop `for i in range(lo, hi): place a buy at base - i*g`, where the i-th
      placement returns `reply(i)`. It appends exactly the reference ladder. */
  function PlaceLadder(run: Run, qpt: real, base: real, g: real, lo: nat, hi: int, reply: nat -> OrderRecord): (r: Run)
    requires LadderNonZero(base, g, lo, hi)
    ensures r.log == run.log + LadderLog(qpt, base, g, lo, hi)
    ensures r.ledger.pairs == run.ledger.pairs + LadderPairs(reply, lo, hi)
    ensures r.ledger.completed == run.ledger.completed && r.ledger.gridSize == run.ledger.gridSize
    decreases hi - lo
  {
    if lo >= hi then
      run
    else
      var price := RungPrice(base, g, lo);
      var next := PlaceBuyOrder(run, qpt / price, price, reply(lo));
      var r := PlaceLadder(next, qpt, base, g, lo + 1, hi, reply);
      assert LadderLog(qpt, base, g, lo, hi) == [LadderBuy(qpt, base, g, lo)] + LadderLog(qpt, base, g, lo + 1, hi);
      assert LadderPairs(reply, lo, hi) == [PairOf(reply(lo))] + LadderPairs(reply, lo + 1, hi);
      r
  }

  // ---------------------------------------------------------------------------
  // Fresh start and initialisation
  // ---------------------------------------------------------------------------

  /** One cancel request per open order, in the venue's order. */
  function CancelAll(orders: seq<OpenOrder>): (r: seq<Request>)
    ensures |r| == |orders|
    ensures forall i :: 0 <= i < |orders| ==> r[i] == Cancel(orders[i].id)
  {
    if |orders| == 0 then [] else [Cancel(orders[0].id)] + CancelAll(orders[1..])
  }

  /** `_perform_fresh_start`: cancel every open order, then sell the whole free base
      balance at market when it is positive. The ledger itself is not cleared.
      A base currency missing from the balances raises after the cancels. */
  function FreshStart(ledger: Ledger, config: BotConfig, openOrders: seq<OpenOrder>, free: map<string, real>): (o: Outcome)
    ensures o.run.ledger == ledger
    ensures o.raised.Some? <==> BaseCurrency(config.pair) !in free
    ensures o.raised.Some? ==> o.raised == Some(KeyError) && o.run.log == CancelAll(openOrders)
    ensures o.raised.None? ==>
      var position := free[BaseCurrency(config.pair)];
      o.run.log == CancelAll(openOrders) + (if position > 0.0 then [MarketSell(position)] else [])
  {
    var cancels := CancelAll(openOrders);
    var base := BaseCurrency(config.pair);
    if base !in free then Outcome(Run(ledger, cancels), Some(KeyError))
    else if free[base] > 0.0 then Outcome(Run(ledger, cancels + [MarketSell(free[base])]), None)
    else Outcome(Run(ledger, cancels), None)
  }

  /** The divisions initialisation performs are defined: investment / grids,
      quote / price, and quote / rung price for every ladder rung. */
  predicate InitDivisible(config: BotConfig, last: real) {
    && config.grids != 0
    && last != 0.0
    && LadderNonZero(last, CalculateGridSize(config, last), 1, config.grids)
  }

  /** A fresh start raises before any price is fetched. */
  predicate FreshStartRaises(config: BotConfig, freshStart: bool, free: map<string, real>) {
    freshStart && BaseCurrency(config.pair) !in free
  }

  /** `initialize_grid`: optional fresh start, then grid size from the ticker price
      `last`, one market buy recorded as a rung, one limit sell attached to the first
      unpaired rung, and limit buys for rungs 1 .. grids-1 below `last`. */
  function InitializeGrid(
    ledger: Ledger, config: BotConfig, freshStart: bool,
    openOrders: seq<OpenOrder>, free: map<string, real>, last: real,
    marketOrder: OrderRecord, sellOrder: OrderRecord, buyReply: nat -> OrderRecord): (o: Outcome)
    requires FreshStartRaises(config, freshStart, free) || InitDivisible(config, last)
    ensures o.raised.Some? <==> FreshStartRaises(config, freshStart, free)
    ensures o.raised.Some? ==> o.raised == Some(KeyError) && o.run == Run(ledger, CancelAll(openOrders))
    ensures o.raised.None? ==>
      var g := CalculateGridSize(config, last);
      var amount := QuotePerTrade(config) / last;
      var pre := if freshStart then FreshStart(ledger, config, openOrders, free).run.log else [];
      && o.run.ledger.gridSize == Some(g)
      && o.run.ledger.completed == ledger.completed
      && o.run.log == pre + [MarketBuy(amount), LimitSell(amount, last + g)] + LadderLog(QuotePerTrade(config), last, g, 1, config.grids)
      && o.run.ledger.pairs == AttachSell(ledger.pairs + [PairOf(marketOrder)], sellOrder.id, sellOrder.price) + LadderPairs(buyReply, 1, config.grids)
  {
    var start := if freshStart then FreshStart(ledger, config, openOrders, free) else Outcome(Run(ledger, []), None);
    if start.raised.Some? then start
    else Outcome(BuildGrid(start.run, config, last, marketOrder, sellOrder, buyReply), None)
  }

  /** The part of initialisation after the optional fresh start: set the grid size,
      record the market buy, attach the first sell, and lay the buy ladder. */
  function BuildGrid(run: Run, config: BotConfig, last: real,
                     marketOrder: OrderRecord, sellOrder: OrderRecord, buyReply: nat -> OrderRecord): (r: Run)
    requires InitDivisible(config, last)
    ensures
      var g := CalculateGridSize(config, last);
      var amount := QuotePerTrade(config) / last;
      && r.ledger.gridSize == Some(g)
      && r.ledger.completed == run.ledger.completed
      && r.log == run.log + [MarketBuy(amount), LimitSell(amount, last + g)] + LadderLog(QuotePerTrade(config), last, g, 1, config.grids)
      && r.ledger.pairs == AttachSell(run.ledger.pairs + [PairOf(marketOrder)], sellOrder.id, sellOrder.price) + LadderPairs(buyReply, 1, config.grids)
  {
    var g := CalculateGridSize(config, last);
    var qpt := QuotePerTrade(config);
    var amount := qpt / last;
    var sized := run.ledger.(gridSize := Some(g));
    var bought := Run(sized.(pairs := sized.pairs + [PairOf(marketOrder)]), run.log + [MarketBuy(amount)]);
    var sold := PlaceSellOrder(bought, amount, last + g, sellOrder);
    assert sold.log == run.log + [MarketBuy(amount), LimitSell(amount, last + g)];
    PlaceLadder(sold, qpt, last, g, 1, config.grids, buyReply)
  }

  // ---------------------------------------------------------------------------
  // Fill handling
  // ---------------------------------------------------------------------------

  /** The divisions a buy fill performs are defined (investment / grids and
      quote / replacement price). Sell fills and other sides divide nothing. */
  predicate FillDivisible(config: BotConfig, ledger: Ledger, trade: Trade) {
    trade.side == "buy" && ledger.gridSize.Some? ==>
      config.grids != 0 && trade.price - ledger.gridSize.value != 0.0
  }

  /** `handle_filled_order`. A buy fill places a sell one grid above the fill and a
      buy one grid below; a sell fill whose id is some rung's sell leg moves the fill
      to the completed list and drops that rung; anything else changes nothing. */
  function HandleFilledOrder(ledger: Ledger, config: BotConfig, trade: Trade, sellOrder: OrderRecord, buyOrder: OrderRecord): (o: Outcome)
    requires FillDivisible(config, ledger, trade)
    ensures o.raised.Some? <==> trade.side == "buy" && ledger.gridSize.None?
    ensures o.raised.Some? ==> o.raised == Some(TypeError) && o.run == Run(ledger, [])
    ensures trade.side == "buy" && ledger.gridSize.Some? ==>
      var g := ledger.gridSize.value;
      var buyPrice := trade.price - g;
      && o.run.log == [LimitSell(trade.amount, trade.price + g), LimitBuy(QuotePerTrade(config) / buyPrice, buyPrice)]
      && o.run.ledger.pairs == AttachSell(ledger.pairs, sellOrder.id, sellOrder.price) + [PairOf(buyOrder)]
      && |o.run.ledger.pairs| == |ledger.pairs| + 1
      && o.run.ledger.completed == ledger.completed
      && o.run.ledger.gridSize == ledger.gridSize
    ensures trade.side == "sell" && FirstSellMatch(ledger.pairs, trade.orderId) < |ledger.pairs| ==>
      && o.run.log == []
      && o.run.ledger.completed == ledger.completed + [trade]
      && o.run.ledger.pairs == RemoveAt(ledger.pairs, FirstSellMatch(ledger.pairs, trade.orderId))
      && o.run.ledger.gridSize == ledger.gridSize
    ensures trade.side != "buy" && (trade.side != "sell" || FirstSellMatch(ledger.pairs, trade.orderId) == |ledger.pairs|) ==>
      o == Outcome(Run(ledger, []), None)
  {
    if trade.side == "buy" then
      if ledger.gridSize.None? then
        Outcome(Run(ledger, []), Some(TypeError))
      else
        var g := ledger.gridSize.value;
        var sold := PlaceSellOrder(Run(ledger, []), trade.amount, trade.price + g, sellOrder);
        var buyPrice := trade.price - g;
        Outcome(PlaceBuyOrder(sold, QuotePerTrade(config) / buyPrice, buyPrice, buyOrder), None)
    else if trade.side == "sell" then
      var k := FirstSellMatch(ledger.pairs, trade.orderId);
      if k < |ledger.pairs| then
        Outcome(Run(ledger.(completed := ledger.completed + [trade], pairs := RemoveAt(ledger.pairs, k)), []), None)
      else
        Outcome(Run(ledger, []), None)
    else
      Outcome(Run(ledger, []), None)
  }

  // ---------------------------------------------------------------------------
  // Health check
  // ---------------------------------------------------------------------------

  /** The open orders of one side, in the venue's order: every order of that side,
      as many times as the venue lists it, and nothing else. */
  function SideFilter(orders: seq<OpenOrder>, side: string): (r: seq<OpenOrder>)
    ensures |r| <= |orders|
    ensures forall o :: o in r ==> o in orders && o.side == side
    ensures forall o :: o in orders && o.side == side ==> o in r
  {
    if |orders| == 0 then []
    else (if orders[0].side == side then [orders[0]] else []) + SideFilter(orders[1..], side)
  }

  /** The filter keeps each order of the side exactly as often as the venue lists it,
      and none of the other side, so its length is the side's order count. */
  lemma {:induction false} SideFilterCounts(orders: seq<OpenOrder>, side: string)
    ensures forall o :: multiset(SideFilter(orders, side))[o] == if o.side == side then multiset(orders)[o] else 0
    decreases |orders|
  {
    if |orders| > 0 {
      SideFilterCounts(orders[1..], side);
      assert orders == [orders[0]] + orders[1..];
    }
  }

  /** The lowest price among a non-empty list of open orders. */
  function LowestPrice(orders: seq<OpenOrder>): (p: real)
    requires |orders| > 0
    ensures exists i :: 0 <= i < |orders| && orders[i].price == p
    ensures forall i :: 0 <= i < |orders| ==> p <= orders[i].price
  {
    if |orders| == 1 then orders[0].price
    else
      var rest := LowestPrice(orders[1..]);
      assert forall i :: 1 <= i < |orders| ==> orders[i] == orders[1..][i - 1];
      if orders[0].price <= rest then orders[0].price else rest
  }

  /** Where the health check starts its buy ladder: the lowest open buy, or one grid
      below the cached price when no buy is open. */
  function HealthBase(buys: seq<OpenOrder>, currentPrice: Option<real>, g: real): real
    requires |buys| > 0 || currentPrice.Some?
  {
    if |buys| > 0 then LowestPrice(buys) else currentPrice.value - g
  }

  /** Number of buys the health check places: grids minus open buys, when positive. */
  function MissingBuys(config: BotConfig, openOrders: seq<OpenOrder>): int {
    config.grids - |SideFilter(openOrders, "buy")|
  }

  /** The health check places a sell: no sell is open and the free base balance is positive. */
  predicate SellWanted(config: BotConfig, openOrders: seq<OpenOrder>, free: map<string, real>) {
    && |SideFilter(openOrders, "sell")| == 0
    && BaseCurrency(config.pair) in free
    && free[BaseCurrency(config.pair)] > 0.0
  }

  /** The health check raises a KeyError: no sell is open and the base balance is missing. */
  predicate HealthKeyError(config: BotConfig, openOrders: seq<OpenOrder>, free: map<string, real>) {
    |SideFilter(openOrders, "sell")| == 0 && BaseCurrency(config.pair) !in free
  }

  /** The health check raises a TypeError: it needs the grid size or the cached price
      for a sell or for the ladder base while one of them is unset. */
  predicate HealthTypeError(config: BotConfig, ledger: Ledger, openOrders: seq<OpenOrder>, free: map<string, real>, currentPrice: Option<real>) {
    || (SellWanted(config, openOrders, free) && (currentPrice.None? || ledger.gridSize.None?))
    || (MissingBuys(config, openOrders) > 0
        && (ledger.gridSize.None? || (|SideFilter(openOrders, "buy")| == 0 && currentPrice.None?)))
  }

  /** Every ladder rung the health check would size has a non-zero price. */
  predicate HealthDivisible(config: BotConfig, ledger: Ledger, openOrders: seq<OpenOrder>, currentPrice: Option<real>) {
    var buys := SideFilter(openOrders, "buy");
    MissingBuys(config, openOrders) > 0 && ledger.gridSize.Some? && (|buys| > 0 || currentPrice.Some?) ==>
      LadderNonZero(HealthBase(buys, currentPrice, ledger.gridSize.value), ledger.gridSize.value, 0, MissingBuys(config, openOrders))
  }

  /** The requests a health check that raises nothing sends. */
  function HealthLog(ledger: Ledger, config: BotConfig, openOrders: seq<OpenOrder>, free: map<string, real>, currentPrice: Option<real>): seq<Request>
    requires HealthDivisible(config, ledger, openOrders, currentPrice)
    requires !HealthKeyError(config, openOrders, free) && !HealthTypeError(config, ledger, openOrders, free, currentPrice)
  {
    var missing := MissingBuys(config, openOrders);
    (if SellWanted(config, openOrders, free)
     then [LimitSell(free[BaseCurrency(config.pair)], currentPrice.value + ledger.gridSize.value)] else [])
    + (if missing > 0
       then LadderLog(QuotePerTrade(config), HealthBase(SideFilter(openOrders, "buy"), currentPrice, ledger.gridSize.value),
                      ledger.gridSize.value, 0, missing)
       else [])
  }

  /** The rung list a health check that raises nothing leaves. */
  function HealthPairs(ledger: Ledger, config: BotConfig, openOrders: seq<OpenOrder>, free: map<string, real>,
                       sellOrder: OrderRecord, buyReply: nat -> OrderRecord): seq<OrderPair>
  {
    var missing := MissingBuys(config, openOrders);
    (if SellWanted(config, openOrders, free) then AttachSell(ledger.pairs, sellOrder.id, sellOrder.price) else ledger.pairs)
    + (if missing > 0 then LadderPairs(buyReply, 0, missing) else [])
  }

  /** `check_order_health`: with no open sell and a positive free base balance, sell
      that balance one grid above the cached price; then place the missing buys,
      grid by grid downwards from the ladder base. Nothing is cancelled or removed. */
  function CheckOrderHealth(
    ledger: Ledger, config: BotConfig, openOrders: seq<OpenOrder>, free: map<string, real>,
    currentPrice: Option<real>, sellOrder: OrderRecord, buyReply: nat -> OrderRecord): (o: Outcome)
    requires HealthDivisible(config, ledger, openOrders, currentPrice)
    ensures o.raised.Some? ==> o.run == Run(ledger, [])
    ensures o.raised == Some(KeyError) <==> HealthKeyError(config, openOrders, free)
    ensures o.raised == Some(TypeError) <==>
      !HealthKeyError(config, openOrders, free) && HealthTypeError(config, ledger, openOrders, free, currentPrice)
    ensures o.raised.None? ==>
      && o.run.ledger.completed == ledger.completed
      && o.run.ledger.gridSize == ledger.gridSize
      && o.run.log == HealthLog(ledger, config, openOrders, free, currentPrice)
      && o.run.ledger.pairs == HealthPairs(ledger, config, openOrders, free, sellOrder, buyReply)
  {
    if HealthKeyError(config, openOrders, free) then
      Outcome(Run(ledger, []), Some(KeyError))
    else if HealthTypeError(config, ledger, openOrders, free, currentPrice) then
      Outcome(Run(ledger, []), Some(TypeError))
    else
      Outcome(RepairGrid(ledger, config, openOrders, free, currentPrice, sellOrder, buyReply), None)
  }

  /** The placements of a health check that raises nothing. */
  function RepairGrid(
    ledger: Ledger, config: BotConfig, openOrders: seq<OpenOrder>, free: map<string, real>,
    currentPrice: Option<real>, sellOrder: OrderRecord, buyReply: nat -> OrderRecord): (r: Run)
    requires HealthDivisible(config, ledger, openOrders, currentPrice)
    requires !HealthKeyError(config, openOrders, free) && !HealthTypeError(config, ledger, openOrders, free, currentPrice)
    ensures r.ledger.completed == ledger.completed && r.ledger.gridSize == ledger.gridSize
    ensures r.log == HealthLog(ledger, config, openOrders, free, currentPrice)
    ensures r.ledger.pairs == HealthPairs(ledger, config, openOrders, free, sellOrder, buyReply)
  {
    var start := Run(ledger, []);
    var sold :=
      if SellWanted(config, openOrders, free)
      then PlaceSellOrder(start, free[BaseCurrency(config.pair)], currentPrice.value + ledger.gridSize.value, sellOrder)
      else start;
    var missing := MissingBuys(config, openOrders);
    if missing <= 0 then
      sold
    else
      var g := ledger.gridSize.value;
      PlaceLadder(sold, QuotePerTrade(config), HealthBase(SideFilter(openOrders, "buy"), currentPrice, g), g, 0, missing, buyReply)
  }
}

=== FILE: websocket.dfy ===
/**
 * The dashboard connection manager: a bounded history of recent prices, a FIFO
 * queue of outgoing messages, and the connection flags. The socket itself is
 * reduced to the outcome of each connect, ping and send.
 */
module WebSocket {
  import opened Wrappers
  import opened Models

  /** The price history keeps at most this many entries. */
  const MaxPrices: nat := 10

  /** Profit figures a message carries. */
  datatype Stats = Stats(totalProfit: real, dailyProfit: real, weeklyProfit: real, monthlyProfit: real)

  /** The message body: a fill, or the empty dictionary of a plain stats update. */
  datatype Payload = TradePayload(trade: Trade) | EmptyPayload

  /** One queued message: bot name, type, body, and stats extended with the price list. */
  datatype Message = Message(bot: string, kind: string, payload: Payload, stats: Stats, prices: seq<real>)

  /** A handle standing for an open socket. */
  type Socket = nat

  datatype WsState = WsState(connected: bool, socket: Option<Socket>, queue: seq<Message>, prices: seq<real>)

  /** A freshly constructed manager: disconnected, no socket, nothing queued or recorded. */
  function NewWsState(): (w: WsState)
    ensures !w.connected && w.socket.None? && w.queue == [] && w.prices == []
  {
    WsState(false, None, [], [])
  }

  /** The last (up to ten) entries of a price sequence. */
  function Latest(s: seq<real>): seq<real> {
    if |s| > MaxPrices then s[|s| - MaxPrices..] else s
  }

  /** `add_price`: append to the bounded history, dropping the oldest entry when full. */
  function AddPrice(prices: seq<real>, price: real): (r: seq<real>)
    ensures |r| == if |prices| < MaxPrices then |prices| + 1 else MaxPrices
    ensures r[|r| - 1] == price
    ensures forall i :: 0 <= i < |r| - 1 ==> r[i] == prices[|prices| - |r| + 1 + i]
  {
    Latest(prices + [price])
  }

  /** The history after recording `ps` one by one, starting from `prices`. */
  function AddPrices(prices: seq<real>, ps: seq<real>): seq<real>
    decreases |ps|
  {
    if |ps| == 0 then prices else AddPrices(AddPrice(prices, ps[0]), ps[1..])
  }

  /** Keeping the latest entries before appending more changes nothing. */
  lemma LatestAbsorbs(a: seq<real>, b: seq<real>)
    ensures Latest(Latest(a) + b) == Latest(a + b)
  {
    var x := Latest(a) + b;
    var y := a + b;
    var lx := Latest(x);
    var ly := Latest(y);
    assert |lx| == |ly|;
    forall i | 0 <= i < |lx|
      ensures lx[i] == ly[i]
    {
      var ix := |x| - |lx| + i;
      var iy := |y| - |ly| + i;
      if ix < |Latest(a)| {
        assert x[ix] == Latest(a)[ix];
      } else {
        assert x[ix] == b[ix - |Latest(a)|];
      }
    }
  }

  /** The history always holds the most recent (up to ten) prices of everything
      recorded so far, in the order they were recorded. */
  lemma {:induction false} AddPricesKeepsLatest(prices: seq<real>, ps: seq<real>)
    requires |prices| <= MaxPrices
    ensures AddPrices(prices, ps) == Latest(prices + ps)
    decreases |ps|
  {
    if |ps| == 0 {
      assert prices + ps == prices;
    } else {
      var next := AddPrice(prices, ps[0]);
      AddPricesKeepsLatest(next, ps[1..]);
      LatestAbsorbs(prices + [ps[0]], ps[1..]);
      assert prices + [ps[0]] + ps[1..] == prices + ps;
    }
  }

  /** `send_update`: when the frontend is on, append one message at the back of the
      queue; otherwise leave the queue alone. Nothing else changes. */
  function SendUpdate(config: BotConfig, w: WsState, kind: string, payload: Payload, stats: Stats): (r: WsState)
    ensures !config.frontend ==> r == w
    ensures config.frontend ==> r == w.(queue := w.queue + [Message(config.name, kind, payload, stats, w.prices)])
  {
    if !config.frontend then w
    else w.(queue := w.queue + [Message(config.name, kind, payload, stats, w.prices)])
  }

  /** Result of one pass of the sender loop: the new state and the message sent, if any. */
  datatype SendStep = SendStep(state: WsState, sent: Option<Message>)

  /** The sender loop may send: connected, with a socket, and something queued. */
  predicate CanSend(w: WsState) {
    w.connected && w.socket.Some? && |w.queue| > 0
  }

  /** One pass of `process_messages`. The front message is taken and sent; on success
      it is gone, on failure it is put back at the front. */
  function ProcessMessagesStep(w: WsState, sendSucceeds: bool): (r: SendStep)
    ensures !CanSend(w) ==> r == SendStep(w, None)
    ensures CanSend(w) && sendSucceeds ==> r.sent == Some(w.queue[0]) && r.state == w.(queue := w.queue[1..])
    ensures CanSend(w) && !sendSucceeds ==> r == SendStep(w, None)
  {
    if CanSend(w) then
      var message := w.queue[0];
      var rest := w.queue[1..];
      if sendSucceeds then SendStep(w.(queue := rest), Some(message))
      else SendStep(w.(queue := [message] + rest), None)
    else
      SendStep(w, None)
  }

  /** The state and sent messages after several passes of the sender loop. */
  datatype Drained = Drained(state: WsState, sent: seq<Message>)

  function ProcessMessages(w: WsState, outcomes: seq<bool>): Drained
    decreases |outcomes|
  {
    if |outcomes| == 0 then Drained(w, [])
    else
      var step := ProcessMessagesStep(w, outcomes[0]);
      var rest := ProcessMessages(step.state, outcomes[1..]);
      Drained(rest.state, (if step.sent.Some? then [step.sent.value] else []) + rest.sent)
  }

  /** The sender loop loses, duplicates and reorders nothing: what it sent, followed by
      what is still queued, is exactly the queue it started from. */
  lemma {:induction false} ProcessMessagesKeepsOrder(w: WsState, outcomes: seq<bool>)
    ensures var d := ProcessMessages(w, outcomes);
            d.sent + d.state.queue == w.queue
            && d.state.connected == w.connected && d.state.socket == w.socket && d.state.prices == w.prices
    decreases |outcomes|
  {
    if |outcomes| > 0 {
      var step := ProcessMessagesStep(w, outcomes[0]);
      ProcessMessagesKeepsOrder(step.state, outcomes[1..]);
      if step.sent.Some? {
        assert w.queue == [w.queue[0]] + w.queue[1..];
      }
    }
  }

  /** How a connection attempt ends. */
  datatype ConnectOutcome = Opened(socket: Socket) | ConnectFailed

  /** `connect`: nothing when the frontend is off; otherwise take the new socket and
      mark connected, or on failure mark disconnected and keep the old socket field. */
  function Connect(config: BotConfig, w: WsState, outcome: ConnectOutcome): (r: WsState)
    ensures !config.frontend ==> r == w
    ensures config.frontend && outcome.Opened? ==> r == w.(connected := true, socket := Some(outcome.socket))
    ensures config.frontend && outcome.ConnectFailed? ==> r == w.(connected := false)
  {
    if !config.frontend then w
    else match outcome
      case Opened(s) => w.(connected := true, socket := Some(s))
      case ConnectFailed => w.(connected := false)
  }

  /** How a ping ends: success, the connection-closed error, or any other error. */
  datatype PingOutcome = Pong | PingClosed | PingError

  /** Result of one keep-alive pass; `stopped` when an unexpected ping error ends the loop. */
  datatype KeepAliveStep = KeepAliveStep(state: WsState, stopped: bool)

  /** One pass of `keep_alive`. With a live connection it pings; a closed connection
      clears both flags, any other ping error escapes the loop. Without one it reconnects. */
  function KeepAlive(config: BotConfig, w: WsState, ping: PingOutcome, outcome: ConnectOutcome): (r: KeepAliveStep)
    ensures !config.frontend ==> r == KeepAliveStep(w, false)
    ensures config.frontend && w.connected && w.socket.Some? ==>
      match ping
      case Pong => r == KeepAliveStep(w, false)
      case PingClosed => r == KeepAliveStep(w.(connected := false, socket := None), false)
      case PingError => r == KeepAliveStep(w, true)
    ensures config.frontend && !(w.connected && w.socket.Some?) ==> r == KeepAliveStep(Connect(config, w, outcome), false)
    ensures r.state.queue == w.queue && r.state.prices == w.prices
  {
    if !config.frontend then KeepAliveStep(w, false)
    else if w.connected && w.socket.Some? then
      match ping
      case Pong => KeepAliveStep(w, false)
      case PingClosed => KeepAliveStep(w.(connected := false, socket := None), false)
      case PingError => KeepAliveStep(w, true)
    else
      KeepAliveStep(Connect(config, w, outcome), false)
  }

  /** The manager never believes it is connected without a socket. */
  predicate ConnectedHasSocket(w: WsState) {
    w.connected ==> w.socket.Some?
  }

  /** Connecting, keep-alive passes and sender passes all keep that belief sound. */
  lemma ConnectionFlagsStaySound(config: BotConfig, w: WsState, ping: PingOutcome, outcome: ConnectOutcome, sendSucceeds: bool)
    requires ConnectedHasSocket(w)
    ensures ConnectedHasSocket(Connect(config, w, outcome))
    ensures ConnectedHasSocket(KeepAlive(config, w, ping, outcome).state)
    ensures ConnectedHasSocket(ProcessMessagesStep(w, sendSucceeds).state)
  {
  }
}

=== FILE: wrappers.dfy ===
/** Option type used for the source's `Optional[...]` fields and `None` results. */
module Wrappers {

  datatype Option<+T> = None | Some(value: T)
}
